=== FILE: README.md ===
# Gowin configuration-port referees, modelled in Dafny

Two MSP432 firmwares pretend to be a Gowin FPGA on its configuration ports
and referee the host that programs it. Each does all of its work in one
port interrupt handler. This project lifts each handler into a pure step
function over the handler's globals, with one call per handler run, and
proves what the referees promise about their inputs.

**SSPI referee** (`SSPI_Emultaor/main.c`), in modules `EventQueue`, `Ticks`,
`Sspi`, `SspiProperties` and `SspiResponses`:

- the 32-slot event ring that the handler fills and the main loop drains.
  Its contents are read as a sequence (`Contents`), and every ring
  operation is stated against that sequence;
- `GetTickDelta` on the 24-bit SysTick down-counter. It is kept exactly as
  written and compared with the reading distance modulo 2^24 (`Elapsed`).
  Across a wrap it comes out one tick short, and a wait of one SysTick period
  (about 349.5 ms at 48 MHz) or more is seen only modulo that period;
- `PORT5_IRQHandler` as `Sspi.Step`. The pending SCK, RESET and CS flags
  are serviced in the source's order. The SCK branch assembles bytes MSB
  first and drives MISO from the response register. On every eighth edge it
  either classifies a command byte (the protocol sequencer with its ordering
  and 4 ms timing guards), counts a burst byte, or loads the next response
  byte;
- whole chip-select windows (`SspiProperties`): one command per window,
  what each command window reports, the write burst, and the configuration
  flow erase → address-init → enable → write → disable;
- the two read responses (`SspiResponses`). IDCODE reads 0x11 on MISO, MSB
  first, then 0. READ_STATUS reads 0x02 in the byte after six counted
  bytes when the done flag is set, and 0 in every other counted byte. The
  byte right after READ_STATUS shifts out whatever the response register
  still held, because READ_STATUS does not reload it.

**JTAG referee** (`JTAG_Emulator/main.c`), in modules `Tap`, `Jtag` and
`JtagProperties`:

- the 16-state TAP controller. Its transition table is proved equal to
  the state diagram of IEEE Std 1149.1 section 6.1, arc for arc. Five
  TMS = 1 clocks reach Test-Logic-Reset from anywhere, and no counter is
  involved;
- `PORT5_IRQHandler` as `Jtag.Step`: the side effects of leaving reset,
  the LSB-first instruction shifter capped at 8 bits, and Update-IR
  classification with its NOOP skip, whitelist and erase ledger;
- IDCODE read-out on TDO and the Shift-DR bit counter under WRITE, with
  its pass/fail verdict at Update-DR;
- the single overwritable `sysStatus` slot, which the main loop reads and
  clears.

Hardware reads are inputs:

- `SysTick->VAL` is a `Ticks.Reading`, an integer below 2^24, one per SSPI
  handler run. The handler reads it in two places, the ERASE timestamp
  (line 271) and `GetTickDelta` for INIT_ADDR (lines 286 and 133); these
  are exclusive branches of one command chain and a run classifies at
  most one byte, so one reading is exact;
- pin levels and pending flags are booleans.

MISO, READY, DONE and TDO are boolean fields of the state. Each `P4->OUT`
LED mask is modelled as the set of lit LEDs. The `uint32_t` counters are
integers below 2^32 that wrap explicitly.

Two details of the code that the model keeps:

- five TMS = 1 clocks only move the TAP to Test-Logic-Reset. The ledger,
  counters and LEDs are reset on the Reset → Run-Test/Idle arc
  (`JTAG_Emulator/main.c`, lines 134-139).
- the SSPI reset branch clears READY and DONE but leaves MISO at its last
  level (`SSPI_Emultaor/main.c`, lines 359-366).

## Model

| member | source | states |
|---|---|---|
| Words.Inc32 | MSP432_Communication_Tester/SSPI_Emultaor/main.c:105 | a `uint32_t` increment is the successor below 2^32 - 1 and wraps to 0 at 2^32 - 1 |
| Words.AddWrappedInc | MSP432_Communication_Tester/SSPI_Emultaor/main.c:346 | one wrapping increment followed by `n` more is `n + 1` wrapping increments |
| Words.ByteFromBits | MSP432_Communication_Tester/SSPI_Emultaor/main.c:102 | two bytes with the same eight bits are the same byte |
| EventQueue.Empty | MSP432_Communication_Tester/SSPI_Emultaor/main.c:72-74 | the power-up ring has both indices below 32 |
| EventQueue.Count | MSP432_Communication_Tester/SSPI_Emultaor/main.c:72-74 | the number held is below 32 and walking that far from `tail` round the ring lands on `head` |
| EventQueue.Contents | MSP432_Communication_Tester/SSPI_Emultaor/main.c:72-74 | the ring holds at most 31 events, and none exactly when `head == tail` |
| EventQueue.Enqueue | MSP432_Communication_Tester/SSPI_Emultaor/main.c:81-87 | on a full ring (31 held) nothing changes and the event is dropped; otherwise the event is appended after the held ones; `tail` is untouched and both indices stay below 32 |
| EventQueue.EnqueueContents | MSP432_Communication_Tester/SSPI_Emultaor/main.c:82-86 | storing at `head` and advancing it appends exactly one event when `head + 1` is not `tail` |
| EventQueue.Dequeue | MSP432_Communication_Tester/SSPI_Emultaor/main.c:89-94 | an empty ring answers `EVT_NONE` and is unchanged; otherwise the oldest event is returned and removed and the rest keep their order; `head` is untouched |
| EventQueue.DequeueContents | MSP432_Communication_Tester/SSPI_Emultaor/main.c:91-92 | advancing `tail` removes exactly the oldest held event |
| EventQueue.NoneMeansEmpty | MSP432_Communication_Tester/SSPI_Emultaor/main.c:89-90 | on a ring holding no `EVT_NONE`, `Dequeue` answers `EVT_NONE` if and only if `head == tail` |
| EventQueue.EnqueueAllKeepsNoNone | MSP432_Communication_Tester/SSPI_Emultaor/main.c:81-87 | enqueueing only real events never puts `EVT_NONE` into a ring that did not hold it |
| EventQueue.EnqueueAllContents | MSP432_Communication_Tester/SSPI_Emultaor/main.c:81-87 | enqueueing several events in turn appends exactly those that still fit, in order, and drops every later one |
| EventQueue.RoomyContents | MSP432_Communication_Tester/SSPI_Emultaor/main.c:81-87 | when the ring has room for all of them, every event is appended in order |
| EventQueue.Drain | MSP432_Communication_Tester/SSPI_Emultaor/main.c:186-189 | dequeuing until `EVT_NONE` yields the held events oldest first, each once (FIFO) |
| EventQueue.OverflowDropsNewest | MSP432_Communication_Tester/SSPI_Emultaor/main.c:81-87 | of 32 events pushed into an empty ring with nobody draining, the first 31 come out in order and the newest is lost |
| Ticks.Elapsed | MSP432_Communication_Tester/SSPI_Emultaor/main.c:132 | the distance between two readings of the counter reloading at 0xFFFFFF, i.e. the number of decrements between them modulo one period, is less than one period (2^24) |
| Ticks.ElapsedIsModular | MSP432_Communication_Tester/SSPI_Emultaor/main.c:132 | that count is `start - now` modulo 2^24, and counting it down from `start` lands on `now` |
| Ticks.GetTickDelta | MSP432_Communication_Tester/SSPI_Emultaor/main.c:133 | the result is at most 0xFFFFFF and 0 when the readings are equal; without a wrap it is the reading distance, across a wrap exactly one less |
| Ticks.GateAgainstElapsed | MSP432_Communication_Tester/SSPI_Emultaor/main.c:42-43 | the 4 ms gate passes whenever the reading distance exceeds 192000 ticks and fails whenever it is below |
| Ticks.Aliasing | MSP432_Communication_Tester/SSPI_Emultaor/main.c:132-133 | a real wait of `d` decrements ends on reading `start - d` modulo 2^24, and the reading distance is `d` modulo 2^24 |
| Ticks.GateAgainstWait | MSP432_Communication_Tester/SSPI_Emultaor/main.c:286-287 | for a real wait shorter than one SysTick period, the gate passes when more than 192000 ticks passed and fails when fewer did; any wait whose remainder modulo 2^24 is below 192000 fails |
| Ticks.LateWaitReadsEarly | MSP432_Communication_Tester/SSPI_Emultaor/main.c:133 | an address-init 2^24 + 100 ticks after the erase at reading 500 reads 400, a distance of 100, and fails the gate |
| Ticks.GateMisjudges | MSP432_Communication_Tester/SSPI_Emultaor/main.c:133 | the gate's verdict differs from the reading distance's exactly when the distance is 192000 and the counter wrapped in between |
| Ticks.WrapAtGateReadsShort | MSP432_Communication_Tester/SSPI_Emultaor/main.c:133 | one such pair: exactly 192000 ticks elapsed across a wrap read as 191999, so the gate reports "too early" |
| Sspi.Armed | MSP432_Communication_Tester/SSPI_Emultaor/main.c:97-107 | the state at interrupt enable satisfies the handler invariant and holds no events |
| Sspi.Classify | MSP432_Communication_Tester/SSPI_Emultaor/main.c:265-344 | every command byte leaves command mode, reports at most two events (never `EVT_NONE`) and turns no LED off; only ERASE, INIT_ADDR, ENABLE and WRITE_REQ move the sequencer; each command's events, next protocol state and diagnostics are as the guards dictate, IDCODE reports `EVT_IDCODE` and READ_STATUS `EVT_STATUS`; ERASE, INIT_ADDR, ENABLE, DISABLE and non-command bytes send the rest of the window to the ignoring mode; bytes other than 0xFF/0xFE outside the command set report `EVT_UNKNOWN` and are recorded as the unknown byte |
| Sspi.ClassifyLights | MSP432_Communication_Tester/SSPI_Emultaor/main.c:286-319 | a command byte lights LED_WRT if it is WRITE_REQ, LED_ERS if it is an INIT_ADDR after an erase that passes the timing gate, and changes no LED otherwise |
| Sspi.EraseCmd | MSP432_Communication_Tester/SSPI_Emultaor/main.c:270-274 | ERASE timestamps the erase, moves to ERASED, clears the done flag and reports `EVT_ERASE`, leaving the LEDs alone |
| Sspi.InitAddrCmd | MSP432_Communication_Tester/SSPI_Emultaor/main.c:277-294 | out of order: `EVT_ERR_SEQ, EVT_INIT_ADDR`, with INIT forced and the received byte and the state it arrived in recorded; too soon after erase: `EVT_ERR_TIMING, EVT_INIT_ADDR`, staying in ERASED; otherwise `EVT_INIT_ADDR`, INIT and LED_ERS lit; no other LED changes on any branch |
| Sspi.WriteReqCmd | MSP432_Communication_Tester/SSPI_Emultaor/main.c:310-321 | WRITE_REQ always ends in WRITING and burst mode with the count cleared, reporting `EVT_ERR_SEQ` first exactly when the sequencer was not in WRITE_WAIT, lighting LED_WRT (and no other LED), and leaving DONE and the done flag alone |
| Sspi.DisableCmd | MSP432_Communication_Tester/SSPI_Emultaor/main.c:324-330 | DISABLE never moves the sequencer; it raises DONE and the done flag and reports `EVT_DONE` after `EVT_DISABLE` exactly when more than 100 bytes were counted; the LEDs are left alone |
| Sspi.CommandByteKeepsNoNone | MSP432_Communication_Tester/SSPI_Emultaor/main.c:265-344 | a classified byte never puts `EVT_NONE` into the ring |
| Sspi.SckEdgeKeepsNoNone | MSP432_Communication_Tester/SSPI_Emultaor/main.c:251-357 | no SCK edge puts `EVT_NONE` into the ring |
| Sspi.CommandByte | MSP432_Communication_Tester/SSPI_Emultaor/main.c:265-344 | classifying a byte always leaves command mode and keeps the received byte and bit counter |
| Sspi.ByteBoundary | MSP432_Communication_Tester/SSPI_Emultaor/main.c:263-355 | outside command mode the framer mode, sequencer and queue are untouched; in burst mode the byte is counted modulo 2^32; in command mode the framer leaves it |
| Sspi.SckEdge | MSP432_Communication_Tester/SSPI_Emultaor/main.c:251-357 | the bit counter stays in [0, 8); outside command mode an edge changes neither the framer mode, the sequencer nor the queue; the eighth edge of a command byte leaves command mode |
| Sspi.ResetEdge | MSP432_Communication_Tester/SSPI_Emultaor/main.c:359-366 | a low reset pin gives IDLE and `SPI_IDLE`, clears READY, DONE and the done flag, and appends `EVT_RESET` if the ring has room; a high pin changes nothing; `EVT_NONE` never enters the ring |
| Sspi.CsEdge | MSP432_Communication_Tester/SSPI_Emultaor/main.c:368-375 | a high CS level ends the window; a low one opens command mode with the bit counter and receive register cleared; the sequencer, queue, LEDs and byte count are untouched |
| Sspi.Step | MSP432_Communication_Tester/SSPI_Emultaor/main.c:248-376 | the handler keeps its invariant (a well-formed ring without `EVT_NONE`, the bit counter in [0, 8)); a CS rise always ends in `SPI_IDLE`; command mode is only entered on a CS fall; a classified byte leaves command mode; a low reset pin leaves the sequencer idle with READY and DONE low; no LED goes out |
| SspiProperties.Run | MSP432_Communication_Tester/SSPI_Emultaor/main.c:248-376 | successive handler runs keep the invariant and never turn an LED off |
| SspiProperties.RunAppend | MSP432_Communication_Tester/SSPI_Emultaor/main.c:248-376 | running two input sequences in turn is running their concatenation |
| SspiProperties.PackBits | MSP432_Communication_Tester/SSPI_Emultaor/main.c:253 | after shifting bits in at bit 0, the last bit sent is at bit 0 and each earlier one a place higher, for the last eight |
| SspiProperties.AssemblyRoundTrip | MSP432_Communication_Tester/SSPI_Emultaor/main.c:253 | MSB-first assembly loses nothing: eight bits shifted in read back as the same bits, and a byte's bits shifted in rebuild the byte, whatever the register held |
| SspiProperties.ClockWithinByte | MSP432_Communication_Tester/SSPI_Emultaor/main.c:251-264 | outside the response modes, edges before a byte's eighth only shift MOSI in and count |
| SspiProperties.MidByteEdge | MSP432_Communication_Tester/SSPI_Emultaor/main.c:251-264 | one such edge shifts one bit in and counts it |
| SspiProperties.LastBitEdge | MSP432_Communication_Tester/SSPI_Emultaor/main.c:261-265 | the eighth edge shifts the last bit in, resets the counter and does the byte-boundary work |
| SspiProperties.ClockWholeByte | MSP432_Communication_Tester/SSPI_Emultaor/main.c:251-355 | eight edges from a byte boundary leave the sent bits in the register and do the byte-boundary work once |
| SspiProperties.DummyBytes | MSP432_Communication_Tester/SSPI_Emultaor/main.c:263-355 | in the ignoring mode any number of further bytes are received but change nothing else: no count, no response, no event, no state change |
| SspiProperties.ByteAssembly | MSP432_Communication_Tester/SSPI_Emultaor/main.c:253 | after a CS fall, eight SCK edges leave the eight MOSI bits in the receive register with the first at the MSB, the counter back at 0, and exactly that byte classified |
| SspiProperties.NoCommandModeNoClassification | MSP432_Communication_Tester/SSPI_Emultaor/main.c:265 | outside command mode and without a CS fall, no byte is classified |
| SspiProperties.AtMostOneCommandPerWindow | MSP432_Communication_Tester/SSPI_Emultaor/main.c:265-344 | without a CS falling edge at most one byte is classified, whatever the inputs |
| SspiProperties.CommandOpened | MSP432_Communication_Tester/SSPI_Emultaor/main.c:372 | a CS fall and a command byte classify exactly that byte |
| SspiProperties.CommandTransaction | MSP432_Communication_Tester/SSPI_Emultaor/main.c:265-375 | a one-command window amounts to classifying its byte, enqueueing what is reported, and going idle |
| SspiProperties.CommandReports | MSP432_Communication_Tester/SSPI_Emultaor/main.c:265-375 | with room in the ring, a command window appends exactly the classification's events |
| SspiProperties.EraseWindow | MSP432_Communication_Tester/SSPI_Emultaor/main.c:270-274 | an ERASE window moves to ERASED, timestamps, and appends `EVT_ERASE` |
| SspiProperties.InitWindow | MSP432_Communication_Tester/SSPI_Emultaor/main.c:277-294 | an INIT_ADDR window appends the sequence error, the timing error or neither, in front of `EVT_INIT_ADDR`, with the matching next state |
| SspiProperties.EnableWindow | MSP432_Communication_Tester/SSPI_Emultaor/main.c:297-307 | an ENABLE window advances only INIT to WRITE_WAIT and appends `EVT_ENABLE` |
| SspiProperties.BurstByte | MSP432_Communication_Tester/SSPI_Emultaor/main.c:346 | one burst byte is received and counted and nothing else changes |
| SspiProperties.BurstBytes | MSP432_Communication_Tester/SSPI_Emultaor/main.c:346 | in burst mode each byte is counted modulo 2^32 and the sequencer, queue, timestamp, DONE, the done flag and LEDs are untouched |
| SspiProperties.WriteOpened | MSP432_Communication_Tester/SSPI_Emultaor/main.c:310-321 | the WRITE_REQ byte of a window enters burst mode in WRITING with the count cleared |
| SspiProperties.WriteTransaction | MSP432_Communication_Tester/SSPI_Emultaor/main.c:310-321 | a write window ends idle in WRITING with the bitstream's length modulo 2^32 counted |
| SspiProperties.WriteWindow | MSP432_Communication_Tester/SSPI_Emultaor/main.c:310-321 | a write window after ENABLE appends only `EVT_WRITE_START` and counts the bitstream |
| SspiProperties.DisableWindow | MSP432_Communication_Tester/SSPI_Emultaor/main.c:324-330 | a DISABLE window keeps the protocol state and appends `EVT_DONE` after `EVT_DISABLE` exactly when more than 100 bytes were counted |
| SspiProperties.Prepared | MSP432_Communication_Tester/SSPI_Emultaor/main.c:270-307 | the referee after erase, address-init and enable windows has a well-formed ring |
| SspiProperties.PreparationFlow | MSP432_Communication_Tester/SSPI_Emultaor/main.c:3-4 | erase, address-init with a gate reading of at least 192000 ticks, and enable reach WRITE_WAIT with exactly the three command events and no violation |
| SspiProperties.PreparationAfterWait | MSP432_Communication_Tester/SSPI_Emultaor/main.c:286-289 | the same flow against real time: an address-init more than 192000 and fewer than 2^24 ticks after the erase reaches WRITE_WAIT with the three command events |
| SspiProperties.ConfigurationFlow | MSP432_Communication_Tester/SSPI_Emultaor/main.c:3-4 | the full flow through disable reports no violation, ends in WRITING, and raises DONE exactly when the bitstream length counted modulo 2^32 exceeds 100, the address-init having a gate reading of at least 192000 ticks |
| SspiProperties.InitWithoutErase | MSP432_Communication_Tester/SSPI_Emultaor/main.c:277-284 | address-init right after arming reports one sequence violation, records it, and still moves to INIT |
| SspiProperties.InitTooEarly | MSP432_Communication_Tester/SSPI_Emultaor/main.c:286-287 | address-init with a gate reading below 192000 ticks after erase (every wait under 4 ms among them) reports one timing violation and stays in ERASED, and the next ENABLE does not advance either |
| SspiProperties.ConsumerKeepsInv | MSP432_Communication_Tester/SSPI_Emultaor/main.c:186-187 | the main loop's `Dequeue` keeps the handler invariant, so handler runs and dequeues may interleave in any order |
| SspiProperties.HandlerNoneMeansEmpty | MSP432_Communication_Tester/SSPI_Emultaor/main.c:89-90 | on every ring satisfying the handler invariant, `Dequeue` answers `EVT_NONE` if and only if the ring is empty |
| SspiProperties.ReachableNoneMeansEmpty | MSP432_Communication_Tester/SSPI_Emultaor/main.c:186-189 | after any inputs from the armed referee, `EVT_NONE` from `Dequeue` means exactly that the ring is empty |
| SspiResponses.MisoTrace | MSP432_Communication_Tester/SSPI_Emultaor/main.c:255-258 | one MISO level is recorded per handler run |
| SspiResponses.ShiftOut | MSP432_Communication_Tester/SSPI_Emultaor/main.c:256-258 | shifting a register out for `n` edges gives `n` bits |
| SspiResponses.ResponseEdge | MSP432_Communication_Tester/SSPI_Emultaor/main.c:255-261 | in a response mode, an edge before the eighth drives MISO from bit 7, shifts the response register up, shifts MOSI in and counts |
| SspiResponses.LastResponseEdge | MSP432_Communication_Tester/SSPI_Emultaor/main.c:255-264 | the eighth response edge drives bit 7 and then does the byte-boundary work |
| SspiResponses.ReadBoundary | MSP432_Communication_Tester/SSPI_Emultaor/main.c:347 | after each IDCODE response byte the response register is cleared |
| SspiResponses.StatusBoundary | MSP432_Communication_Tester/SSPI_Emultaor/main.c:348-354 | after each status byte the count goes up and the register is loaded with 0x02 exactly at count 6 with the done flag set, else 0 |
| SspiResponses.MisoTraceAppend | MSP432_Communication_Tester/SSPI_Emultaor/main.c:255-258 | the MISO levels of two input runs in turn are the two traces joined |
| SspiResponses.ShiftOutSnoc | MSP432_Communication_Tester/SSPI_Emultaor/main.c:256-258 | one more edge drives bit 7 of the register shifted `n` times |
| SspiResponses.ResponseWithin | MSP432_Communication_Tester/SSPI_Emultaor/main.c:255-261 | within a response byte, edges leave MISO at the last bit shifted out and the register shifted once per edge, and touch neither the count, the done flag, the queue nor the sequencer |
| SspiResponses.TraceWithin | MSP432_Communication_Tester/SSPI_Emultaor/main.c:255-258 | within a response byte, MISO reads the register's bits from bit 7 down |
| SspiResponses.ResponseTrace | MSP432_Communication_Tester/SSPI_Emultaor/main.c:255-264 | over a whole response byte MISO reads the register's low byte MSB first |
| SspiResponses.ResponseByte | MSP432_Communication_Tester/SSPI_Emultaor/main.c:347-354 | after a whole response byte the mode, sequencer, queue and done flag are kept; IDCODE clears the register; READ_STATUS counts the byte and loads 0x02 exactly at count 6 with the done flag set |
| SspiResponses.ByteEnd | MSP432_Communication_Tester/SSPI_Emultaor/main.c:263-264 | the eighth response edge lands on the boundary update of the current mode |
| SspiResponses.ByteEndTrace | MSP432_Communication_Tester/SSPI_Emultaor/main.c:256-257 | the eighth response edge drives bit 7 of the register |
| SspiResponses.IdResponseBits | MSP432_Communication_Tester/SSPI_Emultaor/main.c:334 | the loaded response registers 0x11, 0 and 0x02 shift out as the bytes 0x11, 0 and 0x02 |
| SspiResponses.ReadStatusKeeps | MSP432_Communication_Tester/SSPI_Emultaor/main.c:336-338 | READ_STATUS leaves the done flag and the response register alone |
| SspiResponses.IdcodeOpened | MSP432_Communication_Tester/SSPI_Emultaor/main.c:333-335 | a CS fall and IDCODE load 0x11 into the response register in the read-response mode |
| SspiResponses.StatusOpened | MSP432_Communication_Tester/SSPI_Emultaor/main.c:336-338 | a CS fall and READ_STATUS enter the status mode with the count at 0, keeping the done flag and the old response register |
| SspiResponses.IdcodeReadout | MSP432_Communication_Tester/SSPI_Emultaor/main.c:333-335 | after IDCODE the next byte reads 0x11 on MISO, MSB first, and the byte after reads 0 |
| SspiResponses.StatusBytes | MSP432_Communication_Tester/SSPI_Emultaor/main.c:348-354 | in the status mode each byte is counted modulo 2^32 and leaves 0x02 loaded exactly at count 6 with the done flag set |
| SspiResponses.StatusAfter | MSP432_Communication_Tester/SSPI_Emultaor/main.c:336-354 | after READ_STATUS and `k` more bytes, the register holds 0x02 exactly when `k` is 6 and the done flag is set |
| SspiResponses.StatusReadout | MSP432_Communication_Tester/SSPI_Emultaor/main.c:336-354 | after READ_STATUS and `k` further bytes, the next byte reads 0x02 on MISO when `k` is 6 and the done flag is set, and 0 otherwise |
| Tap.NextIsDiagram | MSP432_Communication_Tester/JTAG_Emulator/main.c:133-204 | every transition the handler takes is an arc of the IEEE Std 1149.1 section 6.1 diagram, and every arc of the diagram is taken |
| Tap.ArcListed | MSP432_Communication_Tester/JTAG_Emulator/main.c:133-204 | each state's TMS-selected successor is listed in the diagram |
| Tap.DiagramArcTaken | MSP432_Communication_Tester/JTAG_Emulator/main.c:133-204 | each listed arc is the transition the handler makes |
| Tap.IndexPlaces | MSP432_Communication_Tester/JTAG_Emulator/main.c:37-54 | each of the 16 states has its TMS = 0 arc at position `2k` and its TMS = 1 arc at `2k + 1` of the diagram, `k` being its place below 16 |
| Tap.IndexInjective | MSP432_Communication_Tester/JTAG_Emulator/main.c:37-54 | distinct states get distinct places |
| Tap.SteadyStates | MSP432_Communication_Tester/JTAG_Emulator/main.c:133-200 | under TMS = 0 exactly Run-Test/Idle and the shift and pause states hold; under TMS = 1 only Test-Logic-Reset does |
| Tap.Ones | MSP432_Communication_Tester/JTAG_Emulator/main.c:134 | `n` TMS samples, all 1 |
| Tap.DistanceToReset | MSP432_Communication_Tester/JTAG_Emulator/main.c:133-204 | no state is more than five TMS = 1 clocks from Test-Logic-Reset, which is the only state at distance 0 |
| Tap.DistanceDecreases | MSP432_Communication_Tester/JTAG_Emulator/main.c:133-204 | each TMS = 1 clock brings a state one step closer to Test-Logic-Reset |
| Tap.OnesReachReset | MSP432_Communication_Tester/JTAG_Emulator/main.c:133-204 | at least that many TMS = 1 clocks reach Test-Logic-Reset and stay there |
| Tap.FiveOnesReset | MSP432_Communication_Tester/JTAG_Emulator/main.c:134 | five TMS = 1 clocks reach Test-Logic-Reset from any state, and it is fixed under TMS = 1 |
| Jtag.PowerUp | MSP432_Communication_Tester/JTAG_Emulator/main.c:121-126 | the referee starts in Test-Logic-Reset with the instruction counter in range |
| Jtag.IdBitsAreGowinId | MSP432_Communication_Tester/JTAG_Emulator/main.c:34 | the bit table is the 32 bits of 0x1100581B, bit 0 first |
| Jtag.LeaveReset | MSP432_Communication_Tester/JTAG_Emulator/main.c:134-139 | leaving reset clears the ledger, the counter and the last command, lights exactly the reset LED, and reports the reset |
| Jtag.CaptureData | MSP432_Communication_Tester/JTAG_Emulator/main.c:145-151 | Capture-DR restarts both counters and, under IDCODE only, puts bit 0 of the code on TDO |
| Jtag.ShiftData | MSP432_Communication_Tester/JTAG_Emulator/main.c:155-165 | a Shift-DR clock is counted under WRITE and IDCODE only; under IDCODE TDO shows the code's bit at the new count below 32 and 0 from 32 on |
| Jtag.UpdateData | MSP432_Communication_Tester/JTAG_Emulator/main.c:170-179 | Update-DR does nothing unless WRITE is the last command; then it latches the count and reports success, lighting OK and putting out FAIL, exactly when the count exceeds 100000 after a completed erase, and otherwise reports a failed write and lights FAIL |
| Jtag.ShiftInstruction | MSP432_Communication_Tester/JTAG_Emulator/main.c:191-196 | a Shift-IR clock takes a bit only while fewer than eight have arrived and is otherwise ignored |
| Jtag.UpdateInstruction | MSP432_Communication_Tester/JTAG_Emulator/main.c:203-236 | NOOP changes nothing; any other byte becomes the last command and debug byte and moves the ledger; the status becomes "unknown command" exactly for bytes outside the whitelist (or if it already was); IDCODE lights the ID LED and a completed erase the erase LED; WRITE clears the counter |
| Jtag.Step | MSP432_Communication_Tester/JTAG_Emulator/main.c:128-241 | the TAP moves along its diagram; the instruction counter stays at most 8; the Reset → Idle arc reinitialises ledger, counter, last command, status and LEDs; elsewhere only a pass puts an LED out; the last command and ledger change only at Update-IR or on leaving reset |
| Jtag.TakeStatus | MSP432_Communication_Tester/JTAG_Emulator/main.c:105-117 | the main loop reads the pending report and leaves the slot empty, changing nothing else |
| JtagProperties.Run | MSP432_Communication_Tester/JTAG_Emulator/main.c:128-241 | successive clocks keep the instruction counter in range |
| JtagProperties.RunAppend | MSP432_Communication_Tester/JTAG_Emulator/main.c:128-241 | running two clock sequences in turn is running their concatenation |
| JtagProperties.RunFollowsWalk | MSP432_Communication_Tester/JTAG_Emulator/main.c:133-204 | the referee's TAP state follows the diagram walk of the TMS samples, whatever the side effects |
| JtagProperties.FiveClocksReset | MSP432_Communication_Tester/JTAG_Emulator/main.c:134 | five TMS = 1 clocks put the referee in Test-Logic-Reset from any state |
| JtagProperties.PackLsbSnoc | MSP432_Communication_Tester/JTAG_Emulator/main.c:193 | shifting one more bit in continues the same shift |
| JtagProperties.ShiftInLsbBits | MSP432_Communication_Tester/JTAG_Emulator/main.c:193 | a shift puts the new bit at bit 7 and moves every other bit down one |
| JtagProperties.PackLsbBits | MSP432_Communication_Tester/JTAG_Emulator/main.c:193 | after `n <= 8` shifts the bits sent occupy bits `8 - n` to 7 in order, so after eight bit `i` is the `i`-th bit sent |
| JtagProperties.LsbBits | MSP432_Communication_Tester/JTAG_Emulator/main.c:193 | a byte is sent as eight bits |
| JtagProperties.ShiftClocks | MSP432_Communication_Tester/JTAG_Emulator/main.c:187-197 | one Shift-IR clock per bit |
| JtagProperties.ShiftIrClocks | MSP432_Communication_Tester/JTAG_Emulator/main.c:187-197 | in Shift-IR, TMS = 0 clocks shift TDI in until eight bits have arrived and are ignored after that; the last command, status and ledger are untouched |
| JtagProperties.PackLsbCons | MSP432_Communication_Tester/JTAG_Emulator/main.c:193 | shifting a bit in and then the rest is shifting all of them |
| JtagProperties.ShiftIrStep | MSP432_Communication_Tester/JTAG_Emulator/main.c:187-197 | one TMS = 0 Shift-IR clock takes its bit only while fewer than eight have arrived |
| JtagProperties.InstructionShift | MSP432_Communication_Tester/JTAG_Emulator/main.c:184-197 | Capture-IR and eight or more Shift-IR clocks leave bit `i` of the register equal to the `i`-th TDI bit and the counter at 8 |
| JtagProperties.InstructionRoundTrip | MSP432_Communication_Tester/JTAG_Emulator/main.c:184-197 | a byte sent LSB first after Capture-IR is the byte the register holds |
| JtagProperties.InstructionScan | MSP432_Communication_Tester/JTAG_Emulator/main.c:184-236 | a full instruction scan of `b` makes it the last command unless it is NOOP, and reports it when it is outside the whitelist |
| JtagProperties.IrExit | MSP432_Communication_Tester/JTAG_Emulator/main.c:198-204 | Exit1-IR, Update-IR and back to Idle do only the Update-IR work |
| JtagProperties.TdoTrace | MSP432_Communication_Tester/JTAG_Emulator/main.c:149-163 | one TDO level is recorded per clock |
| JtagProperties.IdcodeShifts | MSP432_Communication_Tester/JTAG_Emulator/main.c:158-164 | under IDCODE each Shift-DR clock shows the code's bit at the advanced counter |
| JtagProperties.IdcodeShiftStep | MSP432_Communication_Tester/JTAG_Emulator/main.c:158-164 | one such clock advances the counter and shows the bit it points at |
| JtagProperties.ShiftTrace | MSP432_Communication_Tester/JTAG_Emulator/main.c:158-164 | a shift clock's bit followed by the trace after it is the trace from one count earlier |
| JtagProperties.IdcodeCapture | MSP432_Communication_Tester/JTAG_Emulator/main.c:145-150 | under IDCODE, Capture-DR enters Shift-DR with the counter at 0 and bit 0 on TDO |
| JtagProperties.IdcodeTrace | MSP432_Communication_Tester/JTAG_Emulator/main.c:145-166 | after Capture-DR, the `j`-th TDO level shows the code's bit at count `j` |
| JtagProperties.ConsTrace | MSP432_Communication_Tester/JTAG_Emulator/main.c:149 | the capture clock's bit 0 in front of the shift trace continues the count from 0 |
| JtagProperties.IdcodeReadout | MSP432_Communication_Tester/JTAG_Emulator/main.c:145-166 | with IDCODE loaded, TDO after Capture-DR and after each TMS = 0 Shift-DR clock shows bits 0 to 31 of 0x1100581B in order, then 0 |
| JtagProperties.ReadoutBits | MSP432_Communication_Tester/JTAG_Emulator/main.c:160-163 | a trace that follows the counter shows the code for the first 32 levels and 0 after |
| JtagProperties.WriteCounts | MSP432_Communication_Tester/JTAG_Emulator/main.c:152-157 | under WRITE the counter counts exactly the TMS = 0 Shift-DR clocks, modulo 2^32, through any detour that avoids Capture-DR, Update-IR and reset |
| JtagProperties.WriteStep | MSP432_Communication_Tester/JTAG_Emulator/main.c:152-157 | one clock under WRITE away from those states counts exactly when it is a TMS = 0 Shift-DR clock |
| JtagProperties.WriteShifts | MSP432_Communication_Tester/JTAG_Emulator/main.c:152-157 | `n` TMS = 0 Shift-DR clocks under WRITE add `n` modulo 2^32 to the counter, stay in Shift-DR and keep the ledger |
| JtagProperties.WriteVerdict | MSP432_Communication_Tester/JTAG_Emulator/main.c:145-179 | Capture-DR, `n` shift clocks and Update-DR under WRITE latch `n` (mod 2^32) and report success with OK lit and FAIL out exactly when it exceeds 100000 after a completed erase, else a failed write with FAIL lit |
| JtagProperties.DrCapture | MSP432_Communication_Tester/JTAG_Emulator/main.c:145-151 | a TMS = 0 clock in Capture-DR does the capture work and enters Shift-DR |
| JtagProperties.DrExit | MSP432_Communication_Tester/JTAG_Emulator/main.c:167-171 | Exit1-DR, Update-DR and back to Idle do only the Update-DR work |
| JtagProperties.EraseLedger | MSP432_Communication_Tester/JTAG_Emulator/main.c:212-221 | ERASE then ERASE_DONE completes the erase and lights the erase LED; ERASE_DONE without a started erase clears the ledger and lights nothing |
| JtagProperties.LedgerHistory | MSP432_Communication_Tester/JTAG_Emulator/main.c:212-221 | from a cleared ledger, after any instruction bytes the ledger is "done" exactly when the last two ERASE/ERASE_DONE bytes were ERASE then ERASE_DONE, and "started" exactly when the last of them was ERASE |
| JtagProperties.ReportOverwritten | MSP432_Communication_Tester/JTAG_Emulator/main.c:59-67 | the status slot holds one report: leaving reset overwrites an unread one, and a second poll finds the slot empty |

## Left out

- Both `main` functions: GPIO and clock setup, UART output, busy-wait delays,
  mode-pin polling and the rendering of events and statuses as text. The
  consumers are modelled only as "dequeue until `EVT_NONE`"
  (`EventQueue.Drain`) and "read and clear `sysStatus`" (`Jtag.TakeStatus`).
- The SSPI main loop's reaction to events: lighting the FAIL and DONE LEDs,
  and clearing the LEDs, done flag and protocol state on `EVT_RESET`.
  `Sspi.Step` models only the LEDs the handler itself lights (ERASE on a
  timely address-init, WRITE on WRITE_REQ).
- `CheckModePins`, `SysTick_Init` and the SysTick peripheral. `now` is an
  input, and SysTick's reload value and 24-bit width are constants in
  `Ticks`.
- The `IES`/`IFG`/`IE` registers. Only the pending flags and pin levels
  are inputs, and `Sspi.Step` keeps the handler's SCK, RESET, CS order.
- Interrupt preemption, `volatile` and the races between handler and main
  loop. Each handler run is one atomic step.
- Ticks.Elapsed: measures only the distance between two 24-bit readings.
  A wait of one SysTick period (about 349.5 ms) or more aliases to its
  remainder, as it does in the code, so a very late address-init can be
  judged too early (`Ticks.LateWaitReadsEarly`).
- Ticks.GateAgainstElapsed: states the gate against the reading distance,
  not real time; against real time (`Ticks.GateAgainstWait`) it holds only
  for waits shorter than one period.
- Ticks.GetTickDelta: the off-by-one across a wrap is kept as written,
  not corrected. `Ticks.GateMisjudges` shows where it changes the 4 ms
  verdict: whenever exactly 192000 ticks elapse across a wrap.
- The `debug_byte`/`debug_bits` and `diag_*` variables are modelled only
  as fields the handler writes. Printing them is left out.

=== FILE: event_queue.dfy ===
/** The SSPI referee's event ring buffer (`Enqueue`/`Dequeue` in
    SSPI_Emultaor/main.c): 32 slots, a write index `head` owned by the
    interrupt handler and a read index `tail` owned by the main loop. One slot
    is always left empty, so at most 31 events are held; an event that would
    fill the last slot is dropped. */
module EventQueue {
  import opened Words

  const QueueSize: nat := 32

  /** The number of events the ring can hold at once. */
  const Capacity: nat := QueueSize - 1

  /** `EventType`; `EvtNone` is the "queue empty" answer of `Dequeue`. */
  datatype EventType =
    | EvtNone
    | EvtEnable
    | EvtErase
    | EvtInitAddr
    | EvtIdcode
    | EvtStatus
    | EvtWriteStart
    | EvtDisable
    | EvtUnknown
    | EvtErrSeq
    | EvtErrTiming
    | EvtReset
    | EvtDone

  datatype Queue = Queue(slots: seq<EventType>, head: nat, tail: nat)

  /** The shape the C array and its two `uint8_t` indices always have. */
  predicate Valid(q: Queue)
  {
    |q.slots| == QueueSize && q.head < QueueSize && q.tail < QueueSize
  }

  /** The queue at power-up: both indices 0, every slot `EVT_NONE`. */
  function Empty(): (q: Queue)
    ensures Valid(q)
  {
    Queue(seq(QueueSize, _ => EvtNone), 0, 0)
  }

  /** Folds an index in [0, 2 * QueueSize) back into the ring. */
  function Wrap(k: nat): (r: nat)
    requires k < 2 * QueueSize
    ensures r < QueueSize && r == k % QueueSize
  {
    if k < QueueSize then k else k - QueueSize
  }

  /** The number of events held: the distance from `tail` forward to `head`. */
  function Count(q: Queue): (n: nat)
    requires Valid(q)
    ensures n < QueueSize && Wrap(q.tail + n) == q.head
  {
    if q.head >= q.tail then q.head - q.tail else q.head + QueueSize - q.tail
  }

  /** The events held, oldest first: the slots from `tail` up to (not
      including) `head`, going round the ring. */
  function Contents(q: Queue): (c: seq<EventType>)
    requires Valid(q)
    ensures |c| == Count(q) <= Capacity
    ensures c == [] <==> q.head == q.tail
  {
    seq(Count(q), i requires 0 <= i < Count(q) => q.slots[Wrap(q.tail + i)])
  }

  /** `Enqueue`: append `e` unless the ring is full, in which case the event
      is dropped and nothing changes. */
  function Enqueue(q: Queue, e: EventType): (r: Queue)
    requires Valid(q)
    ensures Valid(r)
    ensures r.tail == q.tail
    ensures |Contents(q)| == Capacity ==> r == q
    ensures |Contents(q)| < Capacity ==> Contents(r) == Contents(q) + [e]
  {
    var next := (q.head + 1) % QueueSize;
    if next != q.tail then
      var r := Queue(q.slots[q.head := e], next, q.tail);
      EnqueueContents(q, e, r);
      r
    else
      q
  }

  lemma EnqueueContents(q: Queue, e: EventType, r: Queue)
    requires Valid(q) && (q.head + 1) % QueueSize != q.tail
    requires r == Queue(q.slots[q.head := e], (q.head + 1) % QueueSize, q.tail)
    ensures Valid(r)
    ensures Count(q) < Capacity
    ensures Contents(r) == Contents(q) + [e]
  {
    var n := Count(q);
    assert Count(r) == n + 1;
    forall i | 0 <= i < n
      ensures Contents(r)[i] == Contents(q)[i]
    {
      assert Wrap(q.tail + i) != q.head;
    }
  }

  /** The two results of `Dequeue`: the event returned and the ring after it. */
  datatype Popped = Popped(event: EventType, rest: Queue)

  /** `Dequeue`: `EVT_NONE` on an empty ring, otherwise the oldest event, and
      the read index moves on past it. */
  function Dequeue(q: Queue): (p: Popped)
    requires Valid(q)
    ensures Valid(p.rest)
    ensures p.rest.head == q.head
    ensures Contents(q) == [] ==> p.event == EvtNone && p.rest == q
    ensures Contents(q) != [] ==> p.event == Contents(q)[0] && Contents(p.rest) == Contents(q)[1..]
  {
    if q.head == q.tail then
      Popped(EvtNone, q)
    else
      var r := q.(tail := (q.tail + 1) % QueueSize);
      DequeueContents(q, r);
      assert Contents(q)[0] == q.slots[Wrap(q.tail + 0)];
      Popped(q.slots[q.tail], r)
  }

  lemma DequeueContents(q: Queue, r: Queue)
    requires Valid(q) && q.head != q.tail
    requires r == q.(tail := (q.tail + 1) % QueueSize)
    ensures Valid(r)
    ensures Contents(r) == Contents(q)[1..]
  {
    var n := Count(q);
    assert Count(r) == n - 1;
    forall i | 0 <= i < n - 1
      ensures Contents(r)[i] == Contents(q)[i + 1]
    {
      assert Wrap(r.tail + i) == Wrap(q.tail + (i + 1));
    }
  }

  /** The handler never enqueues `EVT_NONE`, so on such a ring the "empty"
      answer of `Dequeue` is unambiguous. */
  lemma NoneMeansEmpty(q: Queue)
    requires Valid(q) && EvtNone !in Contents(q)
    ensures Dequeue(q).event == EvtNone <==> q.head == q.tail
  {
    if q.head != q.tail {
      assert Contents(q)[0] in Contents(q);
    }
  }

  /** `Enqueue` applied to each event of `es` in turn, as one interrupt does
      when it reports several events. */
  function EnqueueAll(q: Queue, es: seq<EventType>): (r: Queue)
    requires Valid(q)
    ensures Valid(r)
    decreases |es|
  {
    if es == [] then q
    else
      EnqueueAll(Enqueue(q, es[0]), es[1..])
  }

  /** Exactly the events that still fit are appended; every later one is
      dropped. */
  lemma {:induction false} EnqueueAllContents(q: Queue, es: seq<EventType>)
    requires Valid(q)
    ensures Contents(EnqueueAll(q, es)) == Contents(q) + es[..Min(|es|, Capacity - |Contents(q)|)]
    decreases |es|
  {
    if es != [] {
      EnqueueAllContents(Enqueue(q, es[0]), es[1..]);
    }
  }

  /** Enqueueing only real events never puts the empty-queue answer into a
      ring that did not hold it. */
  lemma EnqueueAllKeepsNoNone(q: Queue, es: seq<EventType>)
    requires Valid(q)
    ensures EvtNone !in Contents(q) && EvtNone !in es ==> EvtNone !in Contents(EnqueueAll(q, es))
  {
    EnqueueAllContents(q, es);
  }

  /** When the ring has room for all of them, every event is appended. */
  lemma RoomyContents(q: Queue, es: seq<EventType>)
    requires Valid(q) && |Contents(q)| + |es| <= Capacity
    ensures Contents(EnqueueAll(q, es)) == Contents(q) + es
  {
    EnqueueAllContents(q, es);
    assert es[..Min(|es|, Capacity - |Contents(q)|)] == es;
  }

  /** The main loop's consumer: `Dequeue` until the `EVT_NONE` answer. */
  function Drain(q: Queue): (out: seq<EventType>)
    requires Valid(q)
    ensures out == Contents(q)
    decreases Count(q)
  {
    if q.head == q.tail then []
    else
      var p := Dequeue(q);
      [p.event] + Drain(p.rest)
  }

  /** Overflow: of 32 events pushed into an empty ring with nobody draining,
      the newest is dropped and the first 31 come out in the order they went in. */
  lemma OverflowDropsNewest(es: seq<EventType>)
    requires |es| == Capacity + 1
    ensures Drain(EnqueueAll(Empty(), es)) == es[..Capacity]
  {
    EnqueueAllContents(Empty(), es);
  }
}

=== FILE: jtag.dfy ===
/** The JTAG referee (JTAG_Emulator/main.c): `PORT5_IRQHandler` lifted to a
    pure step, one call per TCK rising edge, over the TAP state and the
    handler's globals. TMS and TDI are inputs; TDO and the port-4 LEDs are
    fields of the state. The only report channel is the single overwritable
    `sysStatus` slot, which the main loop reads and clears. */
module Jtag {
  import opened Words
  import opened Tap

  // Instruction bytes of the Gowin configuration flow.
  const CmdIdcode: bv8 := 0x11
  const CmdErase: bv8 := 0x05
  const CmdEraseDone: bv8 := 0x09
  const CmdWrite: bv8 := 0x17
  const CmdNoop: bv8 := 0x02
  const CmdEnable: bv8 := 0x15
  const CmdInitAddr: bv8 := 0x12
  const CmdDisable: bv8 := 0x3A
  const CmdReprogram: bv8 := 0x3C

  /** The instructions accepted without an "unknown command" report. */
  const Known: set<bv8> :=
    {CmdIdcode, CmdErase, CmdEraseDone, CmdWrite, CmdEnable, CmdInitAddr, CmdDisable, CmdReprogram}

  /** A bitstream must be longer than this many Shift-DR clocks. */
  const MinStreamBits: nat := 100000

  /** The identification code read out for IDCODE. */
  const GowinId: bv32 := 0x1100581B

  /** The port-4 indicator LEDs; the lit mask is the set of lit LEDs
      (reset on bit 0, id on bit 1, ok on bit 2, erase on bit 3, fail on bit 4). */
  datatype Led = LedRst | LedId | LedOk | LedErs | LedFail

  /** The `sysStatus` slot. */
  datatype SysStatus = NoError | ErrReset | ErrFailId | ErrFailErase | ErrFailWrite | MsgUnknownCmd | MsgSuccess

  /** The erase ledger: 0 none, 1 started, 2 done. */
  type EraseStage = x: int | 0 <= x <= 2

  datatype State = State(
    tap: TapState,
    shiftReg: bv8,
    bitIdx: int,
    lastCmd: bv8,
    streamCount: U32,
    eraseStage: EraseStage,
    leds: set<Led>,
    status: SysStatus,
    debugByte: bv8,
    debugBits: U32,
    tdo: bool)

  /** The state at power-up. */
  function PowerUp(): (s: State)
    ensures s.tap == Reset && Inv(s)
  {
    State(Reset, 0, 0, 0, 0, 0, {}, NoError, 0, 0, false)
  }

  /** The instruction-bit counter never passes 8. */
  predicate Inv(s: State)
  {
    0 <= s.bitIdx <= 8
  }

  /** The identification code bit by bit, bit 0 first (0x1B, 0x58, 0x00,
      0x11 from the low byte up); `IdBitsAreGowinId` checks it against
      `GowinId`. */
  const IdBits: seq<bool> := [
    true, true, false, true, true, false, false, false,
    false, false, false, true, true, false, true, false,
    false, false, false, false, false, false, false, false,
    true, false, false, false, true, false, false, false]

  lemma IdBitsAreGowinId()
    ensures |IdBits| == 32
    ensures forall i | 0 <= i < 32 :: IdBits[i] == ((GowinId >> i) & 1 == 1)
  {
  }

  /** Bit `i` of the identification code, `(GOWIN_ID_VAL >> i) & 1`. */
  function IdBit(i: nat): bool
    requires i < 32
  {
    IdBits[i]
  }

  /** Leaving Test-Logic-Reset for Run-Test/Idle: the ledger, the counters and
      the last command are cleared, only the reset LED is lit, and the reset
      is reported. */
  function LeaveReset(s: State): (r: State)
    ensures r.eraseStage == 0 && r.streamCount == 0 && r.lastCmd == 0
    ensures r.status == ErrReset && r.leds == {LedRst}
    ensures r.tap == s.tap && r.shiftReg == s.shiftReg && r.bitIdx == s.bitIdx && r.tdo == s.tdo
  {
    s.(leds := {LedRst}, eraseStage := 0, streamCount := 0, lastCmd := 0, status := ErrReset)
  }

  /** Capture-DR: restart the bit counters and, for IDCODE, present bit 0 of
      the identification code on TDO. */
  function CaptureData(s: State): (r: State)
    ensures r.streamCount == 0 && r.bitIdx == 0
    ensures s.lastCmd == CmdIdcode ==> r.tdo == IdBit(0)
    ensures s.lastCmd != CmdIdcode ==> r.tdo == s.tdo
    ensures r.lastCmd == s.lastCmd && r.eraseStage == s.eraseStage && r.leds == s.leds && r.status == s.status
  {
    var t := s.(bitIdx := 0, streamCount := 0);
    if s.lastCmd == CmdIdcode then t.(tdo := IdBit(0)) else t
  }

  /** A Shift-DR clock with TMS = 0: count it under WRITE; under IDCODE count
      it and present the next identification bit, or 0 past bit 31. */
  function ShiftData(s: State): (r: State)
    ensures s.lastCmd in {CmdWrite, CmdIdcode} ==> r.streamCount == Inc32(s.streamCount)
    ensures s.lastCmd !in {CmdWrite, CmdIdcode} ==> r.streamCount == s.streamCount
    ensures s.lastCmd == CmdIdcode ==>
      r.tdo == (r.streamCount < 32 && IdBit(r.streamCount))
    ensures s.lastCmd != CmdIdcode ==> r.tdo == s.tdo
    ensures r.lastCmd == s.lastCmd && r.eraseStage == s.eraseStage && r.leds == s.leds && r.status == s.status
    ensures r.bitIdx == s.bitIdx
  {
    if s.lastCmd == CmdWrite then
      s.(streamCount := Inc32(s.streamCount))
    else if s.lastCmd == CmdIdcode then
      var n := Inc32(s.streamCount);
      s.(streamCount := n, tdo := if n < 32 then IdBit(n) else false)
    else
      s
  }

  /** Update-DR: under WRITE, latch the count and give the verdict. */
  function UpdateData(s: State): (r: State)
    ensures s.lastCmd != CmdWrite ==> r == s
    ensures s.lastCmd == CmdWrite ==>
      && r.debugBits == s.streamCount
      && (r.status == MsgSuccess <==> s.streamCount > MinStreamBits && s.eraseStage == 2)
      && (r.status != MsgSuccess ==> r.status == ErrFailWrite && r.leds == s.leds + {LedFail})
      && (r.status == MsgSuccess ==> r.leds == s.leds + {LedOk} - {LedFail})
    ensures r.tap == s.tap && r.lastCmd == s.lastCmd && r.eraseStage == s.eraseStage && r.bitIdx == s.bitIdx
  {
    if s.lastCmd != CmdWrite then s
    else
      var t := s.(debugBits := s.streamCount);
      if s.streamCount > MinStreamBits && s.eraseStage == 2 then
        t.(leds := t.leds + {LedOk} - {LedFail}, status := MsgSuccess)
      else
        t.(leds := t.leds + {LedFail}, status := ErrFailWrite)
  }

  /** `(shiftReg >> 1) | (tdi << 7)`: the new bit enters at bit 7 and the
      register moves down, so the first bit sent ends at bit 0. */
  function ShiftInLsbFirst(reg: bv8, bit: bool): bv8
  {
    (reg >> 1) | (if bit then 0x80 else 0)
  }

  /** A Shift-IR clock with TMS = 0: take the bit while fewer than 8 have
      arrived; ignore it after that. */
  function ShiftInstruction(s: State, tdi: bool): (r: State)
    ensures s.bitIdx < 8 ==> r.bitIdx == s.bitIdx + 1
    ensures s.bitIdx >= 8 ==> r == s
    ensures r.lastCmd == s.lastCmd && r.eraseStage == s.eraseStage && r.leds == s.leds && r.status == s.status
    ensures r.streamCount == s.streamCount
  {
    if s.bitIdx < 8 then s.(shiftReg := ShiftInLsbFirst(s.shiftReg, tdi), bitIdx := s.bitIdx + 1) else s
  }

  /** The erase ledger's answer to an instruction. */
  function NextEraseStage(stage: EraseStage, cmd: bv8): (r: EraseStage)
    ensures cmd == CmdErase ==> r == 1
    ensures cmd == CmdEraseDone ==> r == (if stage == 1 then 2 else 0)
    ensures cmd != CmdErase && cmd != CmdEraseDone ==> r == stage
  {
    if cmd == CmdErase then 1
    else if cmd == CmdEraseDone then (if stage == 1 then 2 else 0)
    else stage
  }

  /** Update-IR: classify the instruction byte. NOOP changes nothing; any
      other byte becomes the last command and the debug byte, and a byte
      outside the known set is reported. */
  function UpdateInstruction(s: State): (r: State)
    ensures s.shiftReg == CmdNoop ==> r == s
    ensures s.shiftReg != CmdNoop ==>
      && r.lastCmd == s.shiftReg && r.debugByte == s.shiftReg
      && r.eraseStage == NextEraseStage(s.eraseStage, s.shiftReg)
      && (r.status == MsgUnknownCmd <==> s.shiftReg !in Known || s.status == MsgUnknownCmd)
      && (s.shiftReg in Known ==> r.status == s.status)
    ensures s.leds <= r.leds
    ensures s.shiftReg == CmdIdcode ==> r.leds == s.leds + {LedId}
    ensures s.shiftReg == CmdEraseDone && s.eraseStage == 1 ==> r.leds == s.leds + {LedErs}
    ensures s.shiftReg != CmdIdcode && !(s.shiftReg == CmdEraseDone && s.eraseStage == 1) ==> r.leds == s.leds
    ensures s.shiftReg == CmdWrite ==> r.streamCount == 0
    ensures s.shiftReg != CmdWrite ==> r.streamCount == s.streamCount
    ensures r.tap == s.tap && r.bitIdx == s.bitIdx && r.tdo == s.tdo
  {
    var cmd := s.shiftReg;
    if cmd == CmdNoop then s
    else
      var t := s.(debugByte := cmd, lastCmd := cmd, eraseStage := NextEraseStage(s.eraseStage, cmd));
      if cmd == CmdIdcode then t.(leds := t.leds + {LedId})
      else if cmd == CmdErase then t
      else if cmd == CmdEraseDone then
        if s.eraseStage == 1 then t.(leds := t.leds + {LedErs}) else t
      else if cmd == CmdWrite then t.(streamCount := 0)
      else if cmd !in Known then t.(status := MsgUnknownCmd)
      else t
  }

  /** One run of `PORT5_IRQHandler` for a TCK rising edge. */
  function Step(s: State, tms: bool, tdi: bool): (r: State)
    ensures r.tap == Next(s.tap, tms)
    ensures Inv(s) ==> Inv(r)
    // the Reset -> Idle arc reinitialises the ledger and the indicators
    ensures s.tap == Reset && !tms ==>
      && r.eraseStage == 0 && r.streamCount == 0 && r.lastCmd == 0
      && r.status == ErrReset && r.leds == {LedRst}
    // every other clock only turns LEDs on, except that a pass clears FAIL
    ensures !(s.tap == Reset && !tms) ==> s.leds - {LedFail} <= r.leds
    // the last command changes only at Update-IR (and on leaving reset)
    ensures s.tap != UpdateIr && s.tap != Reset ==> r.lastCmd == s.lastCmd
    // the erase ledger moves only at Update-IR (and on leaving reset)
    ensures s.tap != UpdateIr && s.tap != Reset ==> r.eraseStage == s.eraseStage
  {
    var t := s.(tap := Next(s.tap, tms));
    match s.tap
    case Reset => if tms then t else LeaveReset(t)
    case CaptureDr => CaptureData(t)
    case ShiftDr => if tms then t else ShiftData(t)
    case UpdateDr => UpdateData(t)
    case CaptureIr => t.(bitIdx := 0, shiftReg := 0)
    case ShiftIr => if tms then t else ShiftInstruction(t, tdi)
    case UpdateIr => UpdateInstruction(t)
    case _ => t
  }

  /** What the main loop got from one poll of the status slot. */
  datatype Polled = Polled(status: SysStatus, rest: State)

  /** The main loop's consumer: read `sysStatus` and clear it. A later report
      that lands before the next poll overwrites an unread one. */
  function TakeStatus(s: State): (p: Polled)
    ensures p.status == s.status && p.rest.status == NoError
    ensures p.rest.tap == s.tap && p.rest.lastCmd == s.lastCmd && p.rest.eraseStage == s.eraseStage && p.rest.leds == s.leds
  {
    Polled(s.status, s.(status := NoError))
  }
}

=== FILE: jtag_properties.dfy ===
/** Properties of the JTAG referee over sequences of TCK edges: the TAP walk,
    the five-clock reset, instruction loading, IDCODE read-out and bitstream
    measurement. */
module JtagProperties {
  import opened Words
  import opened Tap
  import opened Jtag

  /** The TMS and TDI levels sampled on one TCK rising edge. */
  datatype Clock = Clock(tms: bool, tdi: bool)

  function Run(s: State, cs: seq<Clock>): (r: State)
    ensures Inv(s) ==> Inv(r)
    decreases |cs|
  {
    if cs == [] then s else Run(Step(s, cs[0].tms, cs[0].tdi), cs[1..])
  }

  function TmsOf(cs: seq<Clock>): (tms: seq<bool>)
    ensures |tms| == |cs|
  {
    seq(|cs|, i requires 0 <= i < |cs| => cs[i].tms)
  }

  lemma {:induction false} RunAppend(s: State, a: seq<Clock>, b: seq<Clock>)
    ensures Run(s, a + b) == Run(Run(s, a), b)
    decreases |a|
  {
    if a == [] {
      assert a + b == b;
    } else {
      assert (a + b)[0] == a[0] && (a + b)[1..] == a[1..] + b;
      RunAppend(Step(s, a[0].tms, a[0].tdi), a[1..], b);
    }
  }

  /** The TAP state of the referee follows the standard's diagram whatever
      the handler's side effects. */
  lemma {:induction false} RunFollowsWalk(s: State, cs: seq<Clock>)
    ensures Run(s, cs).tap == Walk(s.tap, TmsOf(cs))
    decreases |cs|
  {
    if cs != [] {
      assert TmsOf(cs)[0] == cs[0].tms && TmsOf(cs)[1..] == TmsOf(cs[1..]);
      RunFollowsWalk(Step(s, cs[0].tms, cs[0].tdi), cs[1..]);
    }
  }

  /** Five clocks with TMS = 1 put the referee in Test-Logic-Reset from any
      state, with no reset counter: the diagram alone does it. */
  lemma FiveClocksReset(s: State, cs: seq<Clock>)
    requires |cs| == 5 && forall k | 0 <= k < 5 :: cs[k].tms
    ensures Run(s, cs).tap == Reset
  {
    RunFollowsWalk(s, cs);
    assert TmsOf(cs) == Ones(5);
    FiveOnesReset(s.tap);
  }

  // ----- Instruction register -----

  /** The instruction register after shifting `bits` in, first bit first. */
  function PackLsb(x: bv8, bits: seq<bool>): bv8
    decreases |bits|
  {
    if bits == [] then x else PackLsb(ShiftInLsbFirst(x, bits[0]), bits[1..])
  }

  lemma {:induction false} PackLsbSnoc(x: bv8, bits: seq<bool>, b: bool)
    ensures PackLsb(x, bits + [b]) == ShiftInLsbFirst(PackLsb(x, bits), b)
    decreases |bits|
  {
    if bits != [] {
      assert (bits + [b])[1..] == bits[1..] + [b];
      PackLsbSnoc(ShiftInLsbFirst(x, bits[0]), bits[1..], b);
    }
  }

  lemma ShiftInLsbBits(x: bv8, b: bool)
    ensures BitOf(ShiftInLsbFirst(x, b), 7) == b
    ensures forall k | 0 <= k < 7 :: BitOf(ShiftInLsbFirst(x, b), k) == BitOf(x, k + 1)
  {
  }

  /** After `n <= 8` shifts the first bit sent sits at bit `8 - n` and the
      last at bit 7; after eight, bit `i` is the `i`-th bit sent. */
  lemma {:induction false} PackLsbBits(x: bv8, bits: seq<bool>)
    requires |bits| <= 8
    ensures forall i | 0 <= i < |bits| :: BitOf(PackLsb(x, bits), 8 - |bits| + i) == bits[i]
    decreases |bits|
  {
    if bits != [] {
      var n := |bits|;
      var init := bits[..n - 1];
      assert bits == init + [bits[n - 1]];
      PackLsbSnoc(x, init, bits[n - 1]);
      PackLsbBits(x, init);
      ShiftInLsbBits(PackLsb(x, init), bits[n - 1]);
      forall i | 0 <= i < n
        ensures BitOf(PackLsb(x, bits), 8 - n + i) == bits[i]
      {
        if i < n - 1 {
          assert BitOf(PackLsb(x, bits), 8 - n + i) == BitOf(PackLsb(x, init), (8 - n + i) + 1);
        }
      }
    }
  }

  /** The bits of a byte in the order a JTAG host sends them, LSB first. */
  function LsbBits(b: bv8): (bits: seq<bool>)
    ensures |bits| == 8
  {
    seq(8, i requires 0 <= i < 8 => BitOf(b, i))
  }

  /** Shift-IR clocks with TMS = 0 carrying `bits` on TDI. */
  function ShiftClocks(bits: seq<bool>): (cs: seq<Clock>)
    ensures |cs| == |bits|
  {
    seq(|bits|, i requires 0 <= i < |bits| => Clock(false, bits[i]))
  }

  /** In Shift-IR, TMS = 0 clocks shift TDI in until eight bits have arrived
      and are ignored after that. */
  lemma {:induction false} ShiftIrClocks(s: State, bits: seq<bool>)
    requires s.tap == ShiftIr && 0 <= s.bitIdx
    ensures var r := Run(s, ShiftClocks(bits));
      var taken := if s.bitIdx >= 8 then 0 else Min(|bits|, 8 - s.bitIdx);
      && r.shiftReg == PackLsb(s.shiftReg, bits[..taken]) && r.bitIdx == s.bitIdx + taken
      && r.tap == ShiftIr && r.lastCmd == s.lastCmd && r.status == s.status && r.eraseStage == s.eraseStage
    decreases |bits|
  {
    if bits != [] {
      var s' := Step(s, false, bits[0]);
      ShiftIrStep(s, bits[0]);
      ShiftClocksCons(s, bits);
      ShiftIrClocks(s', bits[1..]);
      if s.bitIdx < 8 {
        PackLsbTake(s.shiftReg, bits, Min(|bits|, 8 - s.bitIdx));
      } else {
        assert bits[..0] == [];
      }
    }
  }

  /** Running a non-empty burst of TMS = 0 clocks is one clock, then the rest. */
  lemma ShiftClocksCons(s: State, bits: seq<bool>)
    requires bits != []
    ensures Run(s, ShiftClocks(bits)) == Run(Step(s, false, bits[0]), ShiftClocks(bits[1..]))
  {
    assert ShiftClocks(bits)[0] == Clock(false, bits[0]);
    assert ShiftClocks(bits)[1..] == ShiftClocks(bits[1..]);
  }

  lemma PackLsbTake(x: bv8, bits: seq<bool>, k: nat)
    requires 0 < k <= |bits|
    ensures PackLsb(x, bits[..k]) == PackLsb(ShiftInLsbFirst(x, bits[0]), bits[1..][..k - 1])
  {
    assert bits[..k] == [bits[0]] + bits[1..][..k - 1];
    PackLsbCons(x, bits[0], bits[1..][..k - 1]);
  }

  lemma PackLsbCons(x: bv8, b: bool, bits: seq<bool>)
    ensures PackLsb(x, [b] + bits) == PackLsb(ShiftInLsbFirst(x, b), bits)
  {
    assert ([b] + bits)[1..] == bits;
  }

  /** One TMS = 0 clock in Shift-IR. */
  lemma ShiftIrStep(s: State, tdi: bool)
    requires s.tap == ShiftIr && 0 <= s.bitIdx
    ensures Step(s, false, tdi)
      == if s.bitIdx < 8 then s.(shiftReg := ShiftInLsbFirst(s.shiftReg, tdi), bitIdx := s.bitIdx + 1) else s
  {
  }

  /** Capture-IR followed by eight or more Shift-IR clocks: the register
      holds the first eight TDI bits with the first at bit 0; the rest are
      ignored and the bit counter stops at 8. */
  lemma InstructionShift(s: State, bits: seq<bool>)
    requires s.tap == CaptureIr && |bits| >= 8
    ensures var r := Run(s, [Clock(false, false)] + ShiftClocks(bits));
      && r.tap == ShiftIr && r.bitIdx == 8
      && r.lastCmd == s.lastCmd && r.status == s.status && r.eraseStage == s.eraseStage
      && forall i | 0 <= i < 8 :: BitOf(r.shiftReg, i) == bits[i]
  {
    var c := Step(s, false, false);
    assert c == s.(tap := ShiftIr, bitIdx := 0, shiftReg := 0);
    RunAppend(s, [Clock(false, false)], ShiftClocks(bits));
    ShiftIrClocks(c, bits);
    PackLsbBits(0, bits[..8]);
  }

  /** LSB-first loading is lossless: the eight bits of a byte, shifted in
      after Capture-IR, rebuild the byte. */
  lemma InstructionRoundTrip(s: State, b: bv8)
    requires s.tap == CaptureIr
    ensures Run(s, [Clock(false, false)] + ShiftClocks(LsbBits(b))).shiftReg == b
  {
    var r := Run(s, [Clock(false, false)] + ShiftClocks(LsbBits(b)));
    InstructionShift(s, LsbBits(b));
    ByteFromBits(r.shiftReg, b);
  }

  /** The full instruction scan: Capture-IR, the eight bits of `b`, then
      Exit1-IR and Update-IR. The byte becomes the last command unless it is
      NOOP, and an unknown byte is reported. */
  lemma InstructionScan(s: State, b: bv8)
    requires s.tap == CaptureIr
    ensures var r := Run(s, [Clock(false, false)] + ShiftClocks(LsbBits(b)) + [Clock(true, false), Clock(true, false), Clock(false, false)]);
      && r.tap == Idle
      && (b == CmdNoop ==> r.lastCmd == s.lastCmd && r.status == s.status)
      && (b != CmdNoop ==> r.lastCmd == b && r.debugByte == b)
      && (b != CmdNoop && b !in Known ==> r.status == MsgUnknownCmd)
  {
    var load := [Clock(false, false)] + ShiftClocks(LsbBits(b));
    var tail := [Clock(true, false), Clock(true, false), Clock(false, false)];
    RunAppend(s, load, tail);
    InstructionRoundTrip(s, b);
    InstructionShift(s, LsbBits(b));
    IrExit(Run(s, load));
  }

  /** Exit1-IR and Update-IR from Shift-IR, then on to Run-Test/Idle: only
      the Update-IR work happens. */
  lemma IrExit(l: State)
    requires l.tap == ShiftIr
    ensures Run(l, [Clock(true, false), Clock(true, false), Clock(false, false)]) == UpdateInstruction(l.(tap := Idle))
  {
  }

  // ----- Data register -----

  /** The TDO level after each clock. */
  function TdoTrace(s: State, cs: seq<Clock>): (t: seq<bool>)
    ensures |t| == |cs|
    decreases |cs|
  {
    if cs == [] then [] else
      var s' := Step(s, cs[0].tms, cs[0].tdi);
      [s'.tdo] + TdoTrace(s', cs[1..])
  }

  /** All clocks hold TMS at 0. */
  predicate TmsLow(cs: seq<Clock>)
  {
    forall k | 0 <= k < |cs| :: !cs[k].tms
  }

  /** What TDO shows once the IDCODE counter reads `n`. */
  function IdTdo(n: U32): bool
  {
    n < 32 && IdBit(n)
  }

  lemma {:induction false} IdcodeShifts(s: State, cs: seq<Clock>)
    requires s.tap == ShiftDr && s.lastCmd == CmdIdcode && TmsLow(cs)
    ensures forall j | 0 <= j < |cs| :: TdoTrace(s, cs)[j] == IdTdo(AddWrapped(s.streamCount, j + 1))
    decreases |cs|
  {
    if cs != [] {
      var c := Step(s, false, cs[0].tdi);
      IdcodeShiftStep(s, cs[0].tdi);
      assert TdoTrace(s, cs) == [c.tdo] + TdoTrace(c, cs[1..]) by {
        assert !cs[0].tms;
      }
      assert TmsLow(cs[1..]);
      IdcodeShifts(c, cs[1..]);
      ShiftTrace(s.streamCount, c.tdo, TdoTrace(c, cs[1..]));
    }
  }

  /** One TMS = 0 clock in Shift-DR under IDCODE: the counter advances and
      TDO shows the identification bit it now points at. */
  lemma IdcodeShiftStep(s: State, tdi: bool)
    requires s.tap == ShiftDr && s.lastCmd == CmdIdcode
    ensures var c := Step(s, false, tdi);
      && c.tap == ShiftDr && c.lastCmd == CmdIdcode
      && c.streamCount == Inc32(s.streamCount) && c.tdo == IdTdo(c.streamCount)
  {
  }

  /** Prepending one shift clock's bit to the trace of the clocks after it. */
  lemma ShiftTrace(n: U32, first: bool, rest: seq<bool>)
    requires first == IdTdo(AddWrapped(n, 1))
    requires forall j | 0 <= j < |rest| :: rest[j] == IdTdo(AddWrapped(Inc32(n), j + 1))
    ensures forall j | 0 <= j < |rest| + 1 :: ([first] + rest)[j] == IdTdo(AddWrapped(n, j + 1))
  {
    forall j | 1 <= j < |rest| + 1
      ensures ([first] + rest)[j] == IdTdo(AddWrapped(n, j + 1))
    {
      AddWrappedInc(n, j);
    }
  }

  lemma IdcodeCapture(s: State, tdi: bool)
    requires s.tap == CaptureDr && s.lastCmd == CmdIdcode
    ensures var c := Step(s, false, tdi);
      c.tap == ShiftDr && c.lastCmd == CmdIdcode && c.streamCount == 0 && c.tdo == IdBit(0)
  {
  }

  lemma IdcodeTrace(s: State, cs: seq<Clock>)
    requires s.tap == CaptureDr && s.lastCmd == CmdIdcode && |cs| > 0 && TmsLow(cs)
    ensures forall j | 0 <= j < |cs| :: TdoTrace(s, cs)[j] == IdTdo(AddWrapped(0, j))
  {
    var c := Step(s, false, cs[0].tdi);
    IdcodeCapture(s, cs[0].tdi);
    assert TmsLow(cs[1..]);
    IdcodeShifts(c, cs[1..]);
    ConsTrace(c.tdo, TdoTrace(c, cs[1..]));
  }

  /** Prepending the capture clock's bit to the shift clocks' trace. */
  lemma ConsTrace(first: bool, rest: seq<bool>)
    requires first == IdBit(0)
    requires forall j | 0 <= j < |rest| :: rest[j] == IdTdo(AddWrapped(0, j + 1))
    ensures forall j | 0 <= j < |rest| + 1 :: ([first] + rest)[j] == IdTdo(AddWrapped(0, j))
  {
    assert AddWrapped(0, 0) == 0;
  }

  /** IDCODE read-out: with IDCODE the last command, TDO after Capture-DR and
      after each following TMS = 0 Shift-DR clock shows bits 0, 1, ..., 31 of
      the identification code in turn and 0 after that (until the 32-bit
      counter wraps back to bit 0). */
  lemma IdcodeReadout(s: State, cs: seq<Clock>)
    requires s.tap == CaptureDr && s.lastCmd == CmdIdcode && |cs| > 0 && TmsLow(cs)
    ensures forall j | 0 <= j < |cs| && j < 32 :: TdoTrace(s, cs)[j] == IdBit(j)
    ensures forall j | 32 <= j < |cs| && j < Modulus32 :: !TdoTrace(s, cs)[j]
  {
    IdcodeTrace(s, cs);
    ReadoutBits(TdoTrace(s, cs));
  }

  lemma ReadoutBits(t: seq<bool>)
    requires forall j | 0 <= j < |t| :: t[j] == IdTdo(AddWrapped(0, j))
    ensures forall j | 0 <= j < |t| && j < 32 :: t[j] == IdBit(j)
    ensures forall j | 32 <= j < |t| && j < Modulus32 :: !t[j]
  {
    forall j | 0 <= j < |t| && j < Modulus32
      ensures t[j] == IdTdo(j)
    {
      assert AddWrapped(0, j) == j;
    }
  }

  /** How many of the clocks find the TAP in Shift-DR with TMS = 0. */
  function ShiftDrClocks(s: State, cs: seq<Clock>): nat
    decreases |cs|
  {
    if cs == [] then 0 else
      (if s.tap == ShiftDr && !cs[0].tms then 1 else 0) + ShiftDrClocks(Step(s, cs[0].tms, cs[0].tdi), cs[1..])
  }

  /** No clock finds the TAP in a state that reloads the counter or the last
      command: Capture-DR, Update-IR or Test-Logic-Reset. */
  predicate KeepsCounter(s: State, cs: seq<Clock>)
    decreases |cs|
  {
    cs == [] ||
      (s.tap !in {CaptureDr, UpdateIr, Reset} && KeepsCounter(Step(s, cs[0].tms, cs[0].tdi), cs[1..]))
  }

  /** With WRITE the last command, the stream counter counts exactly the
      TMS = 0 Shift-DR clocks, through any detour over Pause-DR, Exit2-DR,
      Update-DR or the idle states, as long as nothing reloads it. */
  lemma {:induction false} WriteCounts(s: State, cs: seq<Clock>)
    requires s.lastCmd == CmdWrite && KeepsCounter(s, cs)
    ensures Run(s, cs).streamCount == AddWrapped(s.streamCount, ShiftDrClocks(s, cs))
    ensures Run(s, cs).lastCmd == CmdWrite
    decreases |cs|
  {
    if cs != [] {
      var s' := Step(s, cs[0].tms, cs[0].tdi);
      WriteStep(s, cs[0].tms, cs[0].tdi);
      WriteCounts(s', cs[1..]);
      AddWrappedInc(s.streamCount, ShiftDrClocks(s', cs[1..]));
    }
  }

  /** One clock under WRITE away from the reloading states. */
  lemma WriteStep(s: State, tms: bool, tdi: bool)
    requires s.lastCmd == CmdWrite && s.tap !in {CaptureDr, UpdateIr, Reset}
    ensures var r := Step(s, tms, tdi);
      && r.lastCmd == CmdWrite
      && r.streamCount == if s.tap == ShiftDr && !tms then Inc32(s.streamCount) else s.streamCount
  {
  }

  /** The bitstream verdict: Capture-DR, `n` Shift-DR clocks, Exit1-DR and
      Update-DR under WRITE. The count is latched, and the verdict is a pass
      exactly when more than 100000 bits arrived after a completed erase. */
  lemma WriteVerdict(s: State, n: nat)
    requires s.tap == CaptureDr && s.lastCmd == CmdWrite
    ensures var cs := [Clock(false, false)] + ShiftClocks(seq(n, _ => false))
                      + [Clock(true, false), Clock(true, false), Clock(false, false)];
      var r := Run(s, cs);
      var count := AddWrapped(0, n);
      && r.tap == Idle && r.debugBits == count
      && (r.status == MsgSuccess <==> count > MinStreamBits && s.eraseStage == 2)
      && (r.status == MsgSuccess ==> LedOk in r.leds && LedFail !in r.leds)
      && (r.status != MsgSuccess ==> r.status == ErrFailWrite && LedFail in r.leds)
  {
    var head := [Clock(false, false)];
    var shifts := ShiftClocks(seq(n, _ => false));
    var tail := [Clock(true, false), Clock(true, false), Clock(false, false)];
    var c := Run(s, head);
    DrCapture(s);
    var w := Run(c, shifts);
    assert w.tap == ShiftDr && w.lastCmd == CmdWrite && w.eraseStage == s.eraseStage && w.streamCount == AddWrapped(0, n) by {
      assert TmsLow(shifts);
      WriteShifts(c, shifts);
    }
    DrExit(w);
    assert Run(s, head + shifts + tail) == Run(w, tail) by {
      RunAppend(s, head, shifts);
      RunAppend(s, head + shifts, tail);
    }
  }

  /** A TMS = 0 clock in Capture-DR does the capture work and enters Shift-DR. */
  lemma DrCapture(s: State)
    requires s.tap == CaptureDr
    ensures Run(s, [Clock(false, false)]) == CaptureData(s.(tap := ShiftDr))
  {
  }

  /** Exit1-DR and Update-DR from Shift-DR, then on to Run-Test/Idle: only
      the Update-DR work happens. */
  lemma DrExit(w: State)
    requires w.tap == ShiftDr
    ensures Run(w, [Clock(true, false), Clock(true, false), Clock(false, false)]) == UpdateData(w.(tap := Idle))
  {
  }

  lemma {:induction false} WriteShifts(s: State, cs: seq<Clock>)
    requires s.tap == ShiftDr && s.lastCmd == CmdWrite && TmsLow(cs)
    ensures var r := Run(s, cs);
      && r.tap == ShiftDr && r.lastCmd == CmdWrite && r.eraseStage == s.eraseStage
      && r.streamCount == AddWrapped(s.streamCount, |cs|)
    decreases |cs|
  {
    if cs != [] {
      var s' := Step(s, false, cs[0].tdi);
      assert TmsLow(cs[1..]);
      WriteShifts(s', cs[1..]);
      AddWrappedInc(s.streamCount, |cs| - 1);
    }
  }

  // ----- Erase ledger and status slot -----

  /** ERASE then ERASE_DONE completes the erase and lights the erase LED;
      ERASE_DONE with no ERASE before it (as the first instruction after
      reset) clears the ledger and lights nothing. */
  lemma EraseLedger(s: State)
    ensures var e := UpdateInstruction(s.(shiftReg := CmdErase));
      var d := UpdateInstruction(e.(shiftReg := CmdEraseDone));
      d.eraseStage == 2 && LedErs in d.leds
    ensures s.eraseStage != 1 ==> UpdateInstruction(s.(shiftReg := CmdEraseDone)).eraseStage == 0
    ensures s.eraseStage != 1 ==> UpdateInstruction(s.(shiftReg := CmdEraseDone)).leds == s.leds
  {
  }

  /** The ERASE and ERASE_DONE bytes among `cmds`, in order. */
  function LedgerBytes(cmds: seq<bv8>): seq<bv8>
    decreases |cmds|
  {
    if cmds == [] then []
    else
      var last := cmds[|cmds| - 1];
      LedgerBytes(cmds[..|cmds| - 1]) + (if last == CmdErase || last == CmdEraseDone then [last] else [])
  }

  /** Update-IR with each byte of `cmds` in turn. */
  function Updates(s: State, cmds: seq<bv8>): State
    decreases |cmds|
  {
    if cmds == [] then s
    else UpdateInstruction(Updates(s, cmds[..|cmds| - 1]).(shiftReg := cmds[|cmds| - 1]))
  }

  /** The erase ledger read off the instruction history alone: from a cleared
      ledger it is "done" exactly when the last two ERASE/ERASE_DONE bytes are
      ERASE then ERASE_DONE, "started" exactly when the last of them is ERASE,
      and cleared otherwise (no such byte, or an ERASE_DONE not preceded by
      ERASE). */
  lemma {:induction false} LedgerHistory(s: State, cmds: seq<bv8>)
    requires s.eraseStage == 0
    ensures var r := Updates(s, cmds);
      var l := LedgerBytes(cmds);
      && (r.eraseStage == 2 <==> |l| >= 2 && l[|l| - 1] == CmdEraseDone && l[|l| - 2] == CmdErase)
      && (r.eraseStage == 1 <==> |l| >= 1 && l[|l| - 1] == CmdErase)
    decreases |cmds|
  {
    if cmds != [] {
      LedgerHistory(s, cmds[..|cmds| - 1]);
    }
  }

  /** The status slot holds one report: an unread report is lost when the
      TAP leaves Test-Logic-Reset before the main loop polls, and a second
      poll finds the slot empty. */
  lemma ReportOverwritten(s: State, tdi: bool)
    requires s.tap == Reset
    ensures TakeStatus(Step(s, false, tdi)).status == ErrReset
    ensures TakeStatus(TakeStatus(s).rest).status == NoError
  {
  }
}

=== FILE: sspi.dfy ===
/** The SSPI referee (SSPI_Emultaor/main.c): `PORT5_IRQHandler` lifted to a
    pure step over the handler's global state. One call of `Step` is one run
    of the handler; it services the pending SCK, RESET and CS flags in that
    order. Pin levels, pending flags and the SysTick reading are inputs; MISO,
    READY, DONE and the port-4 LED mask are fields of the state. */
module Sspi {
  import opened Words
  import opened EventQueue
  import Ticks

  // Command bytes of the Gowin configuration flow.
  const CmdReadStatus: bv8 := 0x41
  const CmdIdcode: bv8 := 0x11
  const CmdEnable: bv8 := 0x15
  const CmdErase: bv8 := 0x05
  const CmdInitAddr: bv8 := 0x12
  const CmdWriteReq: bv8 := 0x3B
  const CmdDisable: bv8 := 0x3A

  /** Filler bytes that are neither classified nor reported as unknown. */
  const FillFF: bv8 := 0xFF
  const FillFE: bv8 := 0xFE

  /** DISABLE signals DONE only after more than this many burst bytes. */
  const DoneThreshold: nat := 100

  /** The response byte loaded for IDCODE. */
  const IdResponse: bv32 := 0x11

  /** The status byte offset at which the done bit is reported, and its value. */
  const StatusDoneByte: nat := 6
  const StatusDoneBit: bv32 := 0x02

  /** The port-4 indicator LEDs, one per bit of `P4->OUT` (bits 0 to 5 in
      this order); the lit mask is modelled as the set of lit LEDs. */
  datatype Led = LedPwr | LedRdy | LedErs | LedWrt | LedDone | LedFail

  /** `ProtocolState`: progress through erase, address-init, enable, write. */
  datatype ProtocolState = ProtoIdle | ProtoErased | ProtoInit | ProtoWriteWait | ProtoWriting

  /** `SpiState`: the framer's view of the current chip-select window. */
  datatype SpiState = SpiIdle | SpiCmd | SpiDummy | SpiBurst | SpiReadRsp | SpiStatusRsp

  /** The handler's globals plus the output pins it drives. */
  datatype State = State(
    queue: Queue,
    spi: SpiState,
    proto: ProtocolState,
    eraseTimestamp: Ticks.Reading,
    shiftReg: bv8,
    bitIdx: int,
    lastCmd: bv8,
    byteCount: U32,
    outShiftReg: bv32,
    doneFlag: bool,
    diagReceivedCmd: bv8,
    diagExpectedState: ProtocolState,
    diagUnknownByte: bv8,
    miso: bool,
    ready: bool,
    done: bool,
    leds: set<Led>)

  /** What one handler run sees: which flags are pending, the pin levels, and
      the SysTick reading. */
  datatype Inputs = Inputs(
    sck: bool,
    reset: bool,
    cs: bool,
    mosi: bool,
    resetLevel: bool,
    csLevel: bool,
    now: Ticks.Reading)

  /** The invariant every reachable state keeps: a well-formed ring that
      never holds the empty-queue answer, and a bit counter within a byte. */
  predicate Inv(s: State)
  {
    Valid(s.queue) && EvtNone !in Contents(s.queue) && 0 <= s.bitIdx < 8
  }

  /** The ring never gains the empty-queue answer. */
  predicate KeepsNoNone(s: State, r: State)
    requires Valid(s.queue) && Valid(r.queue)
  {
    EvtNone !in Contents(s.queue) ==> EvtNone !in Contents(r.queue)
  }

  /** The state `main` leaves when it enables the interrupt: queue empty,
      everything cleared, READY raised and the power and ready LEDs lit. */
  function Armed(): (s: State)
    ensures Inv(s) && Contents(s.queue) == []
  {
    State(Empty(), SpiIdle, ProtoIdle, 0, 0, 0, 0, 0, 0, false, 0, ProtoIdle, 0,
          false, true, false, {LedPwr, LedRdy})
  }

  /** A classified command byte: the state after it (queue untouched) and the
      events it reports, in the order the handler enqueues them. */
  datatype Classified = Classified(next: State, events: seq<EventType>)

  /** True of the seven command bytes the framer acts on. */
  predicate IsCommand(cmd: bv8)
  {
    cmd in {CmdErase, CmdInitAddr, CmdEnable, CmdWriteReq, CmdDisable, CmdIdcode, CmdReadStatus}
  }

  /** The classification of a complete command byte: the protocol sequencer
      with its ordering and timing guards, and the framer's next mode. */
  function Classify(s: State, cmd: bv8, now: Ticks.Reading): (c: Classified)
    // every branch leaves command mode, and only the queue is left to the caller
    ensures c.next.spi != SpiCmd
    ensures c.next.queue == s.queue && c.next.lastCmd == cmd
    ensures Reportable(c.events)
    // indicators are only ever turned on (exactly which: `ClassifyLights`)
    ensures s.leds <= c.next.leds
    // only the four flow commands move the sequencer
    ensures cmd !in {CmdErase, CmdInitAddr, CmdEnable, CmdWriteReq} ==> c.next.proto == s.proto
    ensures cmd == CmdErase ==>
      c.next.proto == ProtoErased && c.next.eraseTimestamp == now && !c.next.doneFlag && c.events == [EvtErase]
    // an ordering violation records what arrived and the state it arrived in
    ensures cmd == CmdInitAddr && s.proto != ProtoErased ==>
      && c.events == [EvtErrSeq, EvtInitAddr] && c.next.proto == ProtoInit
      && c.next.diagReceivedCmd == cmd && c.next.diagExpectedState == s.proto
    ensures cmd == CmdInitAddr && s.proto == ProtoErased ==>
      if Ticks.GetTickDelta(s.eraseTimestamp, now) < Ticks.MinEraseWaitTicks
      then c.events == [EvtErrTiming, EvtInitAddr] && c.next.proto == ProtoErased
      else c.events == [EvtInitAddr] && c.next.proto == ProtoInit
    ensures cmd == CmdEnable ==>
      c.events == [EvtEnable] && c.next.proto == (if s.proto == ProtoInit then ProtoWriteWait else s.proto)
    ensures cmd == CmdWriteReq ==>
      && c.next.proto == ProtoWriting && c.next.spi == SpiBurst && c.next.byteCount == 0
      && c.events == (if s.proto != ProtoWriteWait then [EvtErrSeq, EvtWriteStart] else [EvtWriteStart])
    ensures cmd == CmdWriteReq && s.proto != ProtoWriteWait ==>
      c.next.diagReceivedCmd == cmd && c.next.diagExpectedState == s.proto
    ensures cmd == CmdDisable ==>
      && c.events == (if s.byteCount > DoneThreshold then [EvtDisable, EvtDone] else [EvtDisable])
      && c.next.done == (s.done || s.byteCount > DoneThreshold)
      && c.next.doneFlag == (s.doneFlag || s.byteCount > DoneThreshold)
    ensures cmd == CmdIdcode ==>
      c.next.spi == SpiReadRsp && c.next.outShiftReg == IdResponse && c.events == [EvtIdcode]
    ensures cmd == CmdReadStatus ==>
      c.next.spi == SpiStatusRsp && c.next.byteCount == 0 && c.events == [EvtStatus]
    // the rest of the window after any other command is ignored
    ensures cmd in {CmdErase, CmdInitAddr, CmdEnable, CmdDisable} || !IsCommand(cmd) ==> c.next.spi == SpiDummy
    ensures !IsCommand(cmd) ==>
      c.events == (if cmd != FillFF && cmd != FillFE then [EvtUnknown] else [])
    ensures !IsCommand(cmd) && cmd != FillFF && cmd != FillFE ==> c.next.diagUnknownByte == cmd
  {
    var s := s.(lastCmd := cmd);
    if cmd == CmdErase then EraseCmd(s, now)
    else if cmd == CmdInitAddr then InitAddrCmd(s, now)
    else if cmd == CmdEnable then
      Classified(s.(proto := if s.proto == ProtoInit then ProtoWriteWait else s.proto, spi := SpiDummy),
                 [EvtEnable])
    else if cmd == CmdWriteReq then WriteReqCmd(s)
    else if cmd == CmdDisable then DisableCmd(s)
    else if cmd == CmdIdcode then
      Classified(s.(outShiftReg := IdResponse, spi := SpiReadRsp), [EvtIdcode])
    else if cmd == CmdReadStatus then
      Classified(s.(byteCount := 0, spi := SpiStatusRsp), [EvtStatus])
    else if cmd != FillFF && cmd != FillFE then
      Classified(s.(diagUnknownByte := cmd, spi := SpiDummy), [EvtUnknown])
    else
      Classified(s.(spi := SpiDummy), [])
  }

  /** The indicators a command byte lights: ERASE on an address-init that
      follows an erase and passes the timing gate, WRITE on every write
      request, and none for any other byte. */
  function Lights(s: State, cmd: bv8, now: Ticks.Reading): set<Led>
  {
    if cmd == CmdWriteReq then {LedWrt}
    else if cmd == CmdInitAddr && s.proto == ProtoErased
            && Ticks.GetTickDelta(s.eraseTimestamp, now) >= Ticks.MinEraseWaitTicks then {LedErs}
    else {}
  }

  /** Exactly the indicators `Lights` names are turned on by a command byte;
      no other LED changes. */
  lemma ClassifyLights(s: State, cmd: bv8, now: Ticks.Reading)
    ensures Classify(s, cmd, now).next.leds == s.leds + Lights(s, cmd, now)
  {
  }

  /** At most two events per command byte, none of them the empty-queue
      answer. */
  predicate Reportable(es: seq<EventType>)
  {
    |es| <= 2 && EvtNone !in es
  }

  /** Facts every classification branch keeps: command mode is left, the
      queue and the last command are untouched, and no LED goes out. */
  predicate Keeps(s: State, c: Classified)
  {
    c.next.spi != SpiCmd && c.next.queue == s.queue && c.next.lastCmd == s.lastCmd && s.leds <= c.next.leds
  }

  /** ERASE: timestamp the erase and clear the DONE flag. */
  function EraseCmd(s: State, now: Ticks.Reading): (c: Classified)
    ensures Keeps(s, c) && c.events == [EvtErase] && c.next.spi == SpiDummy && c.next.leds == s.leds
    ensures c.next.proto == ProtoErased && c.next.eraseTimestamp == now && !c.next.doneFlag
  {
    Classified(s.(eraseTimestamp := now, proto := ProtoErased, spi := SpiDummy, doneFlag := false),
               [EvtErase])
  }

  /** INIT_ADDR: out of order it is logged and forced; too soon after the
      erase it is refused; otherwise the sequencer advances. */
  function InitAddrCmd(s: State, now: Ticks.Reading): (c: Classified)
    ensures Keeps(s, c) && c.next.spi == SpiDummy
    ensures c.next.leds == s.leds +
      (if s.proto == ProtoErased && Ticks.GetTickDelta(s.eraseTimestamp, now) >= Ticks.MinEraseWaitTicks
       then {LedErs} else {})
    ensures s.proto != ProtoErased ==>
      && c.events == [EvtErrSeq, EvtInitAddr] && c.next.proto == ProtoInit
      && c.next.diagReceivedCmd == CmdInitAddr && c.next.diagExpectedState == s.proto
    ensures s.proto == ProtoErased ==>
      if Ticks.GetTickDelta(s.eraseTimestamp, now) < Ticks.MinEraseWaitTicks
      then c.events == [EvtErrTiming, EvtInitAddr] && c.next.proto == ProtoErased
      else c.events == [EvtInitAddr] && c.next.proto == ProtoInit
  {
    if s.proto != ProtoErased then
      // log the ordering violation, then force the state the command produces
      Classified(s.(diagReceivedCmd := CmdInitAddr, diagExpectedState := s.proto, proto := ProtoInit, spi := SpiDummy),
                 [EvtErrSeq, EvtInitAddr])
    else if Ticks.GetTickDelta(s.eraseTimestamp, now) < Ticks.MinEraseWaitTicks then
      Classified(s.(spi := SpiDummy), [EvtErrTiming, EvtInitAddr])
    else
      Classified(s.(leds := s.leds + {LedErs}, proto := ProtoInit, spi := SpiDummy), [EvtInitAddr])
  }

  /** WRITE_REQ: enter burst mode with the byte counter cleared; out of order
      it is logged but still honoured. */
  function WriteReqCmd(s: State): (c: Classified)
    ensures Keeps(s, c) && c.next.leds == s.leds + {LedWrt}
    ensures c.next.proto == ProtoWriting && c.next.spi == SpiBurst && c.next.byteCount == 0
    ensures c.events == (if s.proto != ProtoWriteWait then [EvtErrSeq, EvtWriteStart] else [EvtWriteStart])
    ensures s.proto != ProtoWriteWait ==>
      c.next.diagReceivedCmd == CmdWriteReq && c.next.diagExpectedState == s.proto
    ensures c.next.done == s.done && c.next.doneFlag == s.doneFlag && c.next.eraseTimestamp == s.eraseTimestamp
  {
    var t := if s.proto != ProtoWriteWait then s.(diagReceivedCmd := CmdWriteReq, diagExpectedState := s.proto) else s;
    Classified(t.(proto := ProtoWriting, byteCount := 0, leds := t.leds + {LedWrt}, spi := SpiBurst),
               (if s.proto != ProtoWriteWait then [EvtErrSeq, EvtWriteStart] else [EvtWriteStart]))
  }

  /** DISABLE: more than DoneThreshold bitstream bytes raise DONE. */
  function DisableCmd(s: State): (c: Classified)
    ensures Keeps(s, c) && c.next.proto == s.proto && c.next.spi == SpiDummy && c.next.leds == s.leds
    ensures c.events == (if s.byteCount > DoneThreshold then [EvtDisable, EvtDone] else [EvtDisable])
    ensures c.next.done == (s.done || s.byteCount > DoneThreshold)
    ensures c.next.doneFlag == (s.doneFlag || s.byteCount > DoneThreshold)
  {
    if s.byteCount > DoneThreshold then
      Classified(s.(done := true, doneFlag := true, spi := SpiDummy), [EvtDisable, EvtDone])
    else
      Classified(s.(spi := SpiDummy), [EvtDisable])
  }

  /** A completed command byte: classify it and enqueue what it reports. */
  function CommandByte(t: State, now: Ticks.Reading): (r: State)
    requires Valid(t.queue)
    ensures Valid(r.queue) && r.bitIdx == t.bitIdx && r.shiftReg == t.shiftReg
    ensures r.spi != SpiCmd && t.leds <= r.leds
  {
    var c := Classify(t, t.shiftReg, now);
    c.next.(queue := EnqueueAll(c.next.queue, c.events))
  }

  /** The work done on the eighth SCK edge of a byte, once `shiftReg` holds
      the byte: classify it in command mode, count it in burst or status mode,
      and load the next response byte. */
  function ByteBoundary(t: State, now: Ticks.Reading): (r: State)
    requires Valid(t.queue)
    ensures Valid(r.queue) && r.bitIdx == t.bitIdx && r.shiftReg == t.shiftReg
    ensures t.leds <= r.leds
    ensures t.spi != SpiCmd ==> r.spi == t.spi && r.proto == t.proto && r.queue == t.queue
    ensures t.spi == SpiCmd ==> r.spi != SpiCmd
    ensures t.spi == SpiBurst ==> r.byteCount == Inc32(t.byteCount)
  {
    match t.spi
    case SpiCmd => CommandByte(t, now)
    case SpiBurst => t.(byteCount := Inc32(t.byteCount))
    case SpiReadRsp => t.(outShiftReg := 0)
    case SpiStatusRsp =>
      var n := Inc32(t.byteCount);
      t.(byteCount := n, outShiftReg := if n == StatusDoneByte && t.doneFlag then StatusDoneBit else 0)
    case _ => t
  }

  /** `(shiftReg << 1) | mosi`: the new bit enters at bit 0 and the oldest
      leaves at bit 7. */
  function ShiftInMsbFirst(reg: bv8, bit: bool): bv8
  {
    (reg << 1) | (if bit then 1 else 0)
  }

  /** `outShiftReg <<= 1`: the response register after an edge has driven
      its bit 7. */
  function ShiftUp(reg: bv32): bv32
  {
    reg << 1
  }

  /** The MISO level for a response register: its bit 7. */
  function ResponseBit(reg: bv32): bool
  {
    reg & 0x80 != 0
  }

  /** The SCK branch: shift MOSI in at the low end (so a byte arrives
      MSB-first), drive MISO from bit 7 of the response register in the two
      response modes, and act on the byte boundary every eighth edge. */
  function SckEdge(s: State, mosi: bool, now: Ticks.Reading): (r: State)
    requires Valid(s.queue)
    ensures Valid(r.queue)
    ensures 0 <= s.bitIdx < 8 ==> 0 <= r.bitIdx < 8
    ensures s.spi != SpiCmd ==> r.spi == s.spi && r.proto == s.proto && r.queue == s.queue
    ensures s.spi == SpiCmd && s.bitIdx == 7 ==> r.spi != SpiCmd
    ensures s.leds <= r.leds
  {
    var responding := s.spi == SpiReadRsp || s.spi == SpiStatusRsp;
    var t := s.(shiftReg := ShiftInMsbFirst(s.shiftReg, mosi),
                miso := if responding then ResponseBit(s.outShiftReg) else s.miso,
                outShiftReg := if responding then ShiftUp(s.outShiftReg) else s.outShiftReg,
                bitIdx := s.bitIdx + 1);
    if t.bitIdx == 8 then ByteBoundary(t.(bitIdx := 0), now) else t
  }

  /** A classified byte reports only real events, so the ring never gains
      the empty-queue answer. */
  lemma CommandByteKeepsNoNone(t: State, now: Ticks.Reading)
    requires Valid(t.queue)
    ensures KeepsNoNone(t, CommandByte(t, now))
  {
    var c := Classify(t, t.shiftReg, now);
    EnqueueAllKeepsNoNone(c.next.queue, c.events);
  }

  /** Nor does any SCK edge. */
  lemma SckEdgeKeepsNoNone(s: State, mosi: bool, now: Ticks.Reading)
    requires Valid(s.queue)
    ensures KeepsNoNone(s, SckEdge(s, mosi, now))
  {
    var responding := s.spi == SpiReadRsp || s.spi == SpiStatusRsp;
    var t := s.(shiftReg := ShiftInMsbFirst(s.shiftReg, mosi),
                miso := if responding then ResponseBit(s.outShiftReg) else s.miso,
                outShiftReg := if responding then ShiftUp(s.outShiftReg) else s.outShiftReg,
                bitIdx := s.bitIdx + 1);
    if t.bitIdx == 8 && s.spi == SpiCmd {
      CommandByteKeepsNoNone(t.(bitIdx := 0), now);
    }
  }

  /** The RESET branch: a low reset pin returns the sequencer and framer to
      idle, drops READY and DONE, forgets the done flag and reports it. */
  function ResetEdge(s: State, level: bool): (r: State)
    requires Valid(s.queue)
    ensures Valid(r.queue)
    ensures !level ==>
      && r.proto == ProtoIdle && r.spi == SpiIdle && !r.ready && !r.done && !r.doneFlag
      && Contents(r.queue) == Contents(s.queue) + (if |Contents(s.queue)| < Capacity then [EvtReset] else [])
    ensures level ==> r == s
    ensures KeepsNoNone(s, r)
  {
    if !level then
      s.(ready := false, done := false, doneFlag := false, proto := ProtoIdle, spi := SpiIdle,
         queue := Enqueue(s.queue, EvtReset))
    else
      s
  }

  /** The CS branch: a high level (rising edge) ends the window; a low level
      (falling edge) opens a fresh command byte. */
  function CsEdge(s: State, level: bool): (r: State)
    ensures level ==> r.spi == SpiIdle
    ensures !level ==> r.spi == SpiCmd && r.bitIdx == 0 && r.shiftReg == 0
    ensures r.proto == s.proto && r.queue == s.queue && r.leds == s.leds && r.byteCount == s.byteCount
  {
    if level then s.(spi := SpiIdle) else s.(spi := SpiCmd, bitIdx := 0, shiftReg := 0)
  }

  /** A CS falling edge is pending in this handler run. */
  predicate CsFalls(i: Inputs)
  {
    i.cs && !i.csLevel
  }

  /** This handler run completes and classifies a command byte. */
  predicate Classifies(s: State, i: Inputs)
  {
    i.sck && s.spi == SpiCmd && s.bitIdx == 7
  }

  /** One run of `PORT5_IRQHandler`. */
  function Step(s: State, i: Inputs): (r: State)
    requires Valid(s.queue)
    ensures Valid(r.queue)
    ensures Inv(s) ==> Inv(r)
    // CS rising always ends in idle; only a CS falling edge enters command mode
    ensures i.cs && i.csLevel ==> r.spi == SpiIdle
    ensures s.spi != SpiCmd && r.spi == SpiCmd ==> CsFalls(i)
    ensures Classifies(s, i) && !CsFalls(i) ==> r.spi != SpiCmd
    // a low reset pin always leaves the sequencer idle
    ensures i.reset && !i.resetLevel ==> r.proto == ProtoIdle && !r.ready && !r.done
    // LEDs are only ever turned on
    ensures s.leds <= r.leds
  {
    SckEdgeKeepsNoNone(s, i.mosi, i.now);
    var a := if i.sck then SckEdge(s, i.mosi, i.now) else s;
    var b := if i.reset then ResetEdge(a, i.resetLevel) else a;
    if i.cs then CsEdge(b, i.csLevel) else b
  }
}

=== FILE: sspi_properties.dfy ===
/** Properties of the SSPI referee over sequences of handler runs: byte
    assembly, one classified command per chip-select window, whole
    transactions, and the Gowin configuration flow end to end. */
module SspiProperties {
  import opened Words
  import opened EventQueue
  import Ticks
  import opened Sspi

  /** Successive handler runs. */
  function Run(s: State, ins: seq<Inputs>): (r: State)
    requires Valid(s.queue)
    ensures Valid(r.queue)
    ensures Inv(s) ==> Inv(r)
    ensures s.leds <= r.leds
    decreases |ins|
  {
    if ins == [] then s else Run(Step(s, ins[0]), ins[1..])
  }

  lemma {:induction false} RunAppend(s: State, a: seq<Inputs>, b: seq<Inputs>)
    requires Valid(s.queue)
    ensures Run(s, a + b) == Run(Run(s, a), b)
    decreases |a|
  {
    if a == [] {
      assert a + b == b;
    } else {
      assert (a + b)[0] == a[0] && (a + b)[1..] == a[1..] + b;
      RunAppend(Step(s, a[0]), a[1..], b);
    }
  }

  // ----- Pin activity the host produces -----

  /** An SCK rising edge with CS held low and the reset pin high. */
  function ClockInput(mosi: bool, now: Ticks.Reading): Inputs
  {
    Inputs(true, false, false, mosi, true, false, now)
  }

  function CsFallInput(now: Ticks.Reading): Inputs
  {
    Inputs(false, false, true, false, true, false, now)
  }

  function CsRiseInput(now: Ticks.Reading): Inputs
  {
    Inputs(false, false, true, false, true, true, now)
  }

  function ClockIn(bits: seq<bool>, now: Ticks.Reading): (ins: seq<Inputs>)
    ensures |ins| == |bits|
  {
    seq(|bits|, i requires 0 <= i < |bits| => ClockInput(bits[i], now))
  }

  /** The bits of a byte in the order the host sends them, MSB first. */
  function MsbBits(b: bv8): (bits: seq<bool>)
    ensures |bits| == 8
  {
    seq(8, i requires 0 <= i < 8 => BitOf(b, 7 - i))
  }

  /** The host clocking out a sequence of bytes, each MSB first. */
  function BytesIn(bytes: seq<bv8>, now: Ticks.Reading): (ins: seq<Inputs>)
    ensures |ins| == 8 * |bytes|
  {
    if bytes == [] then [] else ClockIn(MsbBits(bytes[0]), now) + BytesIn(bytes[1..], now)
  }

  // ----- Byte assembly -----

  /** The receive register after shifting `bits` in, first bit first. */
  function Pack(x: bv8, bits: seq<bool>): bv8
    decreases |bits|
  {
    if bits == [] then x else Pack(ShiftInMsbFirst(x, bits[0]), bits[1..])
  }

  lemma {:induction false} PackSnoc(x: bv8, bits: seq<bool>, b: bool)
    ensures Pack(x, bits + [b]) == ShiftInMsbFirst(Pack(x, bits), b)
    decreases |bits|
  {
    if bits == [] {
    } else {
      assert (bits + [b])[1..] == bits[1..] + [b];
      PackSnoc(ShiftInMsbFirst(x, bits[0]), bits[1..], b);
    }
  }

  lemma ShiftInBits(x: bv8, b: bool)
    ensures BitOf(ShiftInMsbFirst(x, b), 0) == b
    ensures forall k | 0 <= k < 7 :: BitOf(ShiftInMsbFirst(x, b), k + 1) == BitOf(x, k)
  {
  }

  /** After `n` shifts the last bit sent sits at bit 0 and the first of the
      last eight at bit 7. */
  lemma {:induction false} PackBits(x: bv8, bits: seq<bool>)
    ensures forall i | 0 <= i < |bits| && |bits| - 1 - i < 8 :: BitOf(Pack(x, bits), |bits| - 1 - i) == bits[i]
    decreases |bits|
  {
    if bits != [] {
      var n := |bits|;
      var init := bits[..n - 1];
      assert bits == init + [bits[n - 1]];
      PackSnoc(x, init, bits[n - 1]);
      PackBits(x, init);
      ShiftInBits(Pack(x, init), bits[n - 1]);
      forall i | 0 <= i < n && n - 1 - i < 8
        ensures BitOf(Pack(x, bits), n - 1 - i) == bits[i]
      {
        if i < n - 1 {
          assert BitOf(Pack(x, bits), (n - 2 - i) + 1) == BitOf(Pack(x, init), n - 2 - i);
        }
      }
    }
  }

  /** MSB-first assembly is lossless both ways: eight bits shifted in read
      back as the same eight bits, and the bits of a byte shifted in rebuild
      the byte, whatever the register held before. */
  lemma AssemblyRoundTrip(x: bv8, bits: seq<bool>, b: bv8)
    requires |bits| == 8
    ensures MsbBits(Pack(x, bits)) == bits
    ensures Pack(x, MsbBits(b)) == b
  {
    PackBits(x, bits);
    PackBits(x, MsbBits(b));
    forall k | 0 <= k < 8
      ensures BitOf(Pack(x, MsbBits(b)), k) == BitOf(b, k)
    {
      assert BitOf(Pack(x, MsbBits(b)), 8 - 1 - (7 - k)) == MsbBits(b)[7 - k];
    }
    ByteFromBits(Pack(x, MsbBits(b)), b);
  }

  /** Within a byte (before its eighth edge) an SCK edge in a non-response
      mode only shifts the receive register and counts the bit. */
  lemma {:induction false} ClockWithinByte(s: State, bits: seq<bool>, now: Ticks.Reading)
    requires Valid(s.queue) && 0 <= s.bitIdx && s.bitIdx + |bits| < 8
    requires s.spi != SpiReadRsp && s.spi != SpiStatusRsp
    ensures Run(s, ClockIn(bits, now)) == s.(shiftReg := Pack(s.shiftReg, bits), bitIdx := s.bitIdx + |bits|)
    decreases |bits|
  {
    if bits != [] {
      var s' := Step(s, ClockInput(bits[0], now));
      MidByteEdge(s, bits[0], now);
      assert ClockIn(bits, now)[1..] == ClockIn(bits[1..], now);
      ClockWithinByte(s', bits[1..], now);
    }
  }

  /** An SCK edge before the eighth bit only shifts and counts. */
  lemma MidByteEdge(s: State, b: bool, now: Ticks.Reading)
    requires Valid(s.queue) && 0 <= s.bitIdx < 7
    requires s.spi != SpiReadRsp && s.spi != SpiStatusRsp
    ensures Step(s, ClockInput(b, now)) == s.(shiftReg := ShiftInMsbFirst(s.shiftReg, b), bitIdx := s.bitIdx + 1)
  {
  }

  /** The eighth SCK edge shifts the last bit in and does the byte-boundary work. */
  lemma LastBitEdge(s: State, b: bool, now: Ticks.Reading)
    requires Valid(s.queue) && s.bitIdx == 7
    requires s.spi != SpiReadRsp && s.spi != SpiStatusRsp
    ensures Run(s, [ClockInput(b, now)]) == ByteBoundary(s.(shiftReg := ShiftInMsbFirst(s.shiftReg, b), bitIdx := 0), now)
  {
  }

  /** A whole byte clocked in from a byte boundary: the register holds the
      bits sent and the byte-boundary work runs once, on the eighth edge. */
  lemma ClockWholeByte(s: State, bits: seq<bool>, now: Ticks.Reading)
    requires Valid(s.queue) && s.bitIdx == 0 && |bits| == 8
    requires s.spi != SpiReadRsp && s.spi != SpiStatusRsp
    ensures Run(s, ClockIn(bits, now)) == ByteBoundary(s.(shiftReg := Pack(s.shiftReg, bits)), now)
  {
    var first := bits[..7];
    assert bits == first + [bits[7]];
    assert ClockIn(bits, now) == ClockIn(first, now) + [ClockInput(bits[7], now)];
    RunAppend(s, ClockIn(first, now), [ClockInput(bits[7], now)]);
    ClockWithinByte(s, first, now);
    LastBitEdge(Run(s, ClockIn(first, now)), bits[7], now);
    PackSnoc(s.shiftReg, first, bits[7]);
  }

  /** After ERASE, INIT_ADDR, ENABLE, DISABLE or an unknown byte the rest of
      the window is ignored: bytes are received but nothing else changes. */
  lemma {:induction false} DummyBytes(s: State, bytes: seq<bv8>, now: Ticks.Reading)
    requires Valid(s.queue) && s.spi == SpiDummy && s.bitIdx == 0
    ensures Run(s, BytesIn(bytes, now)).(shiftReg := s.shiftReg) == s
    decreases |bytes|
  {
    if bytes != [] {
      var head := ClockIn(MsbBits(bytes[0]), now);
      ClockWholeByte(s, MsbBits(bytes[0]), now);
      var m := Run(s, head);
      assert m == s.(shiftReg := m.shiftReg);
      RunAppend(s, head, BytesIn(bytes[1..], now));
      DummyBytes(m, bytes[1..], now);
    }
  }

  /** After a CS falling edge, eight SCK edges leave the eight MOSI bits in
      the receive register with the first at bit 7, bring the bit counter back
      to 0, and classify exactly that byte. */
  lemma ByteAssembly(s: State, bits: seq<bool>, now: Ticks.Reading)
    requires Inv(s) && |bits| == 8
    ensures var r := Run(s, [CsFallInput(now)] + ClockIn(bits, now));
      && MsbBits(r.shiftReg) == bits && r.bitIdx == 0
      && r.lastCmd == r.shiftReg && r.spi != SpiCmd
  {
    var f := Step(s, CsFallInput(now));
    RunAppend(s, [CsFallInput(now)], ClockIn(bits, now));
    ClockWholeByte(f, bits, now);
    AssemblyRoundTrip(0, bits, 0);
  }

  // ----- One command per chip-select window -----

  /** How many handler runs of `ins` classify a command byte. */
  function Classifications(s: State, ins: seq<Inputs>): nat
    requires Valid(s.queue)
    decreases |ins|
  {
    if ins == [] then 0
    else (if Classifies(s, ins[0]) then 1 else 0) + Classifications(Step(s, ins[0]), ins[1..])
  }

  predicate NoCsFall(ins: seq<Inputs>)
  {
    forall k | 0 <= k < |ins| :: !CsFalls(ins[k])
  }

  lemma {:induction false} NoCommandModeNoClassification(s: State, ins: seq<Inputs>)
    requires Valid(s.queue) && s.spi != SpiCmd && NoCsFall(ins)
    ensures Classifications(s, ins) == 0
    decreases |ins|
  {
    if ins != [] {
      NoCommandModeNoClassification(Step(s, ins[0]), ins[1..]);
    }
  }

  /** Without a CS falling edge the framer classifies at most one byte:
      classification leaves command mode and only a falling edge re-enters it. */
  lemma {:induction false} AtMostOneCommandPerWindow(s: State, ins: seq<Inputs>)
    requires Valid(s.queue) && NoCsFall(ins)
    ensures Classifications(s, ins) <= 1
    decreases |ins|
  {
    if ins != [] {
      var s' := Step(s, ins[0]);
      if Classifies(s, ins[0]) {
        assert !CsFalls(ins[0]);
        NoCommandModeNoClassification(s', ins[1..]);
      } else {
        AtMostOneCommandPerWindow(s', ins[1..]);
      }
    }
  }

  // ----- Whole transactions -----

  /** One chip-select window carrying a single command byte. */
  function CommandInputs(cmd: bv8, now: Ticks.Reading): seq<Inputs>
  {
    [CsFallInput(now)] + ClockIn(MsbBits(cmd), now) + [CsRiseInput(now)]
  }

  /** One chip-select window carrying WRITE_REQ and then the bitstream. */
  function WriteInputs(payload: seq<bv8>, now: Ticks.Reading): seq<Inputs>
  {
    [CsFallInput(now)] + ClockIn(MsbBits(CmdWriteReq), now) + BytesIn(payload, now) + [CsRiseInput(now)]
  }

  /** The state right after a CS falling edge and a command byte. */
  function Opened(s: State, cmd: bv8): State
  {
    s.(spi := SpiCmd, bitIdx := 0, shiftReg := cmd)
  }

  /** A CS falling edge and the eight bits of `cmd` run the command-byte
      work on exactly that byte. */
  lemma CommandOpened(s: State, cmd: bv8, now: Ticks.Reading)
    requires Valid(s.queue)
    ensures Run(s, [CsFallInput(now)] + ClockIn(MsbBits(cmd), now)) == CommandByte(Opened(s, cmd), now)
  {
    var f := Step(s, CsFallInput(now));
    assert f == s.(spi := SpiCmd, bitIdx := 0, shiftReg := 0);
    RunAppend(s, [CsFallInput(now)], ClockIn(MsbBits(cmd), now));
    ClockWholeByte(f, MsbBits(cmd), now);
    AssemblyRoundTrip(0, MsbBits(cmd), cmd);
  }

  /** A command window amounts to classifying its byte, enqueueing what the
      classification reports, and returning to idle. */
  lemma CommandTransaction(s: State, cmd: bv8, now: Ticks.Reading)
    requires Valid(s.queue)
    ensures var c := Classify(Opened(s, cmd), cmd, now);
      Run(s, CommandInputs(cmd, now)) == c.next.(queue := EnqueueAll(s.queue, c.events), spi := SpiIdle)
  {
    var opening := [CsFallInput(now)] + ClockIn(MsbBits(cmd), now);
    RunAppend(s, opening, [CsRiseInput(now)]);
    CommandOpened(s, cmd, now);
  }

  /** In burst mode every byte is counted (modulo 2^32) and nothing else that
      the sequencer or the reporter sees changes. */
  lemma {:induction false} BurstBytes(s: State, bytes: seq<bv8>, now: Ticks.Reading)
    requires Valid(s.queue) && s.spi == SpiBurst && s.bitIdx == 0
    ensures var r := Run(s, BytesIn(bytes, now));
      && r.spi == SpiBurst && r.bitIdx == 0
      && r.byteCount == AddWrapped(s.byteCount, |bytes|)
      && r.proto == s.proto && r.queue == s.queue && r.eraseTimestamp == s.eraseTimestamp
      && r.done == s.done && r.doneFlag == s.doneFlag && r.leds == s.leds
    decreases |bytes|
  {
    if bytes != [] {
      var first := ClockIn(MsbBits(bytes[0]), now);
      RunAppend(s, first, BytesIn(bytes[1..], now));
      BurstByte(s, bytes[0], now);
      BurstBytes(Run(s, first), bytes[1..], now);
      AddWrappedInc(s.byteCount, |bytes| - 1);
    }
  }

  /** One byte in burst mode: received and counted, nothing else changes. */
  lemma BurstByte(s: State, b: bv8, now: Ticks.Reading)
    requires Valid(s.queue) && s.spi == SpiBurst && s.bitIdx == 0
    ensures Run(s, ClockIn(MsbBits(b), now)) == s.(shiftReg := Pack(s.shiftReg, MsbBits(b)), byteCount := Inc32(s.byteCount))
  {
    ClockWholeByte(s, MsbBits(b), now);
  }

  /** A write window: WRITE_REQ is classified, the bitstream is counted, and
      the window closes. */
  lemma WriteTransaction(s: State, payload: seq<bv8>, now: Ticks.Reading)
    requires Valid(s.queue)
    ensures var c := Classify(Opened(s, CmdWriteReq), CmdWriteReq, now);
      var r := Run(s, WriteInputs(payload, now));
      && r.spi == SpiIdle && r.proto == ProtoWriting
      && r.byteCount == AddWrapped(0, |payload|)
      && r.queue == EnqueueAll(s.queue, c.events)
      && r.done == s.done && r.doneFlag == s.doneFlag && r.eraseTimestamp == s.eraseTimestamp
  {
    var opening := [CsFallInput(now)] + ClockIn(MsbBits(CmdWriteReq), now);
    var body := BytesIn(payload, now);
    var w := Run(s, opening);
    WriteOpened(s, now);
    var b := Run(w, body);
    assert b.spi == SpiBurst && b.proto == ProtoWriting && b.byteCount == AddWrapped(0, |payload|)
      && b.queue == w.queue && b.done == s.done && b.doneFlag == s.doneFlag && b.eraseTimestamp == s.eraseTimestamp by {
      BurstBytes(w, payload, now);
    }
    assert Run(s, WriteInputs(payload, now)) == Step(b, CsRiseInput(now)) by {
      RunAppend(s, opening + body, [CsRiseInput(now)]);
      RunAppend(s, opening, body);
    }
  }

  /** The WRITE_REQ byte of a write window switches the framer to burst mode
      with the counter cleared. */
  lemma WriteOpened(s: State, now: Ticks.Reading)
    requires Valid(s.queue)
    ensures var c := Classify(Opened(s, CmdWriteReq), CmdWriteReq, now);
      var w := Run(s, [CsFallInput(now)] + ClockIn(MsbBits(CmdWriteReq), now));
      && w.spi == SpiBurst && w.bitIdx == 0 && w.proto == ProtoWriting && w.byteCount == 0
      && w.queue == EnqueueAll(s.queue, c.events)
      && w.done == s.done && w.doneFlag == s.doneFlag && w.eraseTimestamp == s.eraseTimestamp
  {
    CommandOpened(s, CmdWriteReq, now);
  }

  // ----- The Gowin flow end to end -----

  /** What a command window reports, when the ring has room for it. */
  lemma CommandReports(s: State, cmd: bv8, now: Ticks.Reading)
    requires Valid(s.queue) && |Contents(s.queue)| + 2 <= Capacity
    ensures var c := Classify(Opened(s, cmd), cmd, now);
      var r := Run(s, CommandInputs(cmd, now));
      && Contents(r.queue) == Contents(s.queue) + c.events
      && r.proto == c.next.proto && r.done == c.next.done && r.byteCount == c.next.byteCount
      && r.eraseTimestamp == c.next.eraseTimestamp && r.spi == SpiIdle
  {
    var c := Classify(Opened(s, cmd), cmd, now);
    var r := Run(s, CommandInputs(cmd, now));
    assert r == c.next.(queue := EnqueueAll(s.queue, c.events), spi := SpiIdle) by {
      CommandTransaction(s, cmd, now);
    }
    assert Reportable(c.events);
    RoomyContents(s.queue, c.events);
  }

  lemma EraseWindow(s: State, t: Ticks.Reading)
    requires Valid(s.queue) && |Contents(s.queue)| + 2 <= Capacity
    ensures var r := Run(s, CommandInputs(CmdErase, t));
      && r.proto == ProtoErased && r.eraseTimestamp == t && r.done == s.done
      && Contents(r.queue) == Contents(s.queue) + [EvtErase]
  {
    var o := Opened(s, CmdErase);
    assert o.byteCount == s.byteCount && o.done == s.done && o.proto == s.proto && o.eraseTimestamp == s.eraseTimestamp;
    CommandReports(s, CmdErase, t);
  }

  lemma InitWindow(s: State, t: Ticks.Reading)
    requires Valid(s.queue) && |Contents(s.queue)| + 2 <= Capacity
    ensures var r := Run(s, CommandInputs(CmdInitAddr, t));
      && r.done == s.done && r.eraseTimestamp == s.eraseTimestamp
      && if s.proto != ProtoErased then
           r.proto == ProtoInit && Contents(r.queue) == Contents(s.queue) + [EvtErrSeq, EvtInitAddr]
         else if Ticks.GetTickDelta(s.eraseTimestamp, t) < Ticks.MinEraseWaitTicks then
           r.proto == ProtoErased && Contents(r.queue) == Contents(s.queue) + [EvtErrTiming, EvtInitAddr]
         else
           r.proto == ProtoInit && Contents(r.queue) == Contents(s.queue) + [EvtInitAddr]
  {
    var o := Opened(s, CmdInitAddr);
    assert o.byteCount == s.byteCount && o.done == s.done && o.proto == s.proto && o.eraseTimestamp == s.eraseTimestamp;
    CommandReports(s, CmdInitAddr, t);
  }

  lemma EnableWindow(s: State, t: Ticks.Reading)
    requires Valid(s.queue) && |Contents(s.queue)| + 2 <= Capacity
    ensures var r := Run(s, CommandInputs(CmdEnable, t));
      && r.proto == (if s.proto == ProtoInit then ProtoWriteWait else s.proto) && r.done == s.done
      && Contents(r.queue) == Contents(s.queue) + [EvtEnable]
  {
    var o := Opened(s, CmdEnable);
    assert o.byteCount == s.byteCount && o.done == s.done && o.proto == s.proto && o.eraseTimestamp == s.eraseTimestamp;
    CommandReports(s, CmdEnable, t);
  }

  lemma WriteWindow(s: State, payload: seq<bv8>, t: Ticks.Reading)
    requires Valid(s.queue) && |Contents(s.queue)| + 2 <= Capacity && s.proto == ProtoWriteWait
    ensures var r := Run(s, WriteInputs(payload, t));
      && r.proto == ProtoWriting && r.done == s.done && r.byteCount == AddWrapped(0, |payload|)
      && Contents(r.queue) == Contents(s.queue) + [EvtWriteStart]
  {
    WriteTransaction(s, payload, t);
  }

  lemma DisableWindow(s: State, t: Ticks.Reading)
    requires Valid(s.queue) && |Contents(s.queue)| + 2 <= Capacity
    ensures var r := Run(s, CommandInputs(CmdDisable, t));
      var passed := s.byteCount > DoneThreshold;
      && r.proto == s.proto && r.done == (s.done || passed)
      && Contents(r.queue) == Contents(s.queue) + (if passed then [EvtDisable, EvtDone] else [EvtDisable])
  {
    var o := Opened(s, CmdDisable);
    assert o.byteCount == s.byteCount && o.done == s.done && o.proto == s.proto && o.eraseTimestamp == s.eraseTimestamp;
    CommandReports(s, CmdDisable, t);
  }

  /** The referee after erase, address-init and enable windows, starting
      armed. */
  function Prepared(t0: Ticks.Reading, t1: Ticks.Reading, t2: Ticks.Reading): (s: State)
    ensures Valid(s.queue)
  {
    var s1 := Run(Armed(), CommandInputs(CmdErase, t0));
    var s2 := Run(s1, CommandInputs(CmdInitAddr, t1));
    Run(s2, CommandInputs(CmdEnable, t2))
  }

  /** Erase, address-init once the gate reads at least 192000 ticks, and
      enable bring the sequencer to WRITE_WAIT without any violation. */
  lemma PreparationFlow(t0: Ticks.Reading, t1: Ticks.Reading, t2: Ticks.Reading)
    requires Ticks.GetTickDelta(t0, t1) >= Ticks.MinEraseWaitTicks
    ensures var s := Prepared(t0, t1, t2);
      s.proto == ProtoWriteWait && !s.done && Contents(s.queue) == [EvtErase, EvtInitAddr, EvtEnable]
  {
    var s0 := Armed();
    var s1 := Run(s0, CommandInputs(CmdErase, t0));
    assert s1.proto == ProtoErased && s1.eraseTimestamp == t0 && !s1.done && Contents(s1.queue) == [EvtErase] by {
      EraseWindow(s0, t0);
    }
    var s2 := Run(s1, CommandInputs(CmdInitAddr, t1));
    assert s2.proto == ProtoInit && !s2.done && Contents(s2.queue) == [EvtErase, EvtInitAddr] by {
      InitWindow(s1, t1);
    }
    EnableWindow(s2, t2);
  }

  /** Erase, address-init once the gate reads at least 192000 ticks, enable,
      a write of the bitstream and disable, starting from the armed referee:
      the sequencer ends in the writing state, no violation is reported, and
      DONE is raised exactly when the byte count, modulo 2^32, exceeds 100. */
  lemma ConfigurationFlow(t0: Ticks.Reading, t1: Ticks.Reading, t2: Ticks.Reading, t3: Ticks.Reading,
                          t4: Ticks.Reading, payload: seq<bv8>)
    requires Ticks.GetTickDelta(t0, t1) >= Ticks.MinEraseWaitTicks
    ensures var s4 := Run(Prepared(t0, t1, t2), WriteInputs(payload, t3));
      var s5 := Run(s4, CommandInputs(CmdDisable, t4));
      var passed := AddWrapped(0, |payload|) > DoneThreshold;
      && s5.proto == ProtoWriting
      && Contents(s5.queue) == [EvtErase, EvtInitAddr, EvtEnable, EvtWriteStart, EvtDisable]
                               + (if passed then [EvtDone] else [])
      && s5.done == passed
  {
    var s3 := Prepared(t0, t1, t2);
    PreparationFlow(t0, t1, t2);
    var s4 := Run(s3, WriteInputs(payload, t3));
    assert && s4.proto == ProtoWriting && !s4.done && s4.byteCount == AddWrapped(0, |payload|)
           && Contents(s4.queue) == [EvtErase, EvtInitAddr, EvtEnable, EvtWriteStart] by {
      WriteWindow(s3, payload, t3);
    }
    DisableWindow(s4, t4);
  }

  /** The preparation flow against real time: an address-init more than 4 ms
      but less than one counter period after the erase passes the gate. */
  lemma PreparationAfterWait(t0: Ticks.Reading, d: nat, t2: Ticks.Reading)
    requires Ticks.MinEraseWaitTicks < d < Ticks.Period
    ensures var s := Prepared(t0, (t0 - d) % Ticks.Period, t2);
      s.proto == ProtoWriteWait && !s.done && Contents(s.queue) == [EvtErase, EvtInitAddr, EvtEnable]
  {
    Ticks.GateAgainstWait(t0, d);
    PreparationFlow(t0, (t0 - d) % Ticks.Period, t2);
  }

  /** The ordering guard: address-init straight after arming reports exactly
      one sequence violation and still moves the sequencer on to INIT. */
  lemma InitWithoutErase(t: Ticks.Reading)
    ensures var r := Run(Armed(), CommandInputs(CmdInitAddr, t));
      && Contents(r.queue) == [EvtErrSeq, EvtInitAddr] && r.proto == ProtoInit
      && r.diagReceivedCmd == CmdInitAddr && r.diagExpectedState == ProtoIdle
  {
    CommandTransaction(Armed(), CmdInitAddr, t);
  }

  /** The timing guard: address-init whose gate reading is below 192000
      ticks after erase (as every wait under 4 ms is) reports exactly one timing violation and leaves the sequencer in
      ERASED; the enable that follows then does not advance it either. */
  lemma InitTooEarly(t0: Ticks.Reading, t1: Ticks.Reading, t2: Ticks.Reading)
    requires Ticks.GetTickDelta(t0, t1) < Ticks.MinEraseWaitTicks
    ensures var s1 := Run(Armed(), CommandInputs(CmdErase, t0));
      var s2 := Run(s1, CommandInputs(CmdInitAddr, t1));
      var s3 := Run(s2, CommandInputs(CmdEnable, t2));
      && Contents(s2.queue) == [EvtErase, EvtErrTiming, EvtInitAddr] && s2.proto == ProtoErased
      && Contents(s3.queue) == [EvtErase, EvtErrTiming, EvtInitAddr, EvtEnable] && s3.proto == ProtoErased
  {
    var s0 := Armed();
    var s1 := Run(s0, CommandInputs(CmdErase, t0));
    assert s1.proto == ProtoErased && s1.eraseTimestamp == t0 && Contents(s1.queue) == [EvtErase] by {
      EraseWindow(s0, t0);
    }
    var s2 := Run(s1, CommandInputs(CmdInitAddr, t1));
    assert s2.proto == ProtoErased && Contents(s2.queue) == [EvtErase, EvtErrTiming, EvtInitAddr] by {
      InitWindow(s1, t1);
    }
    EnableWindow(s2, t2);
  }

  // ----- The consumer's view of the ring -----

  /** The main loop's `Dequeue` keeps the handler invariant, so the handler
      and the consumer can take turns on the ring in any order. */
  lemma ConsumerKeepsInv(s: State)
    requires Inv(s)
    ensures Inv(s.(queue := Dequeue(s.queue).rest))
  {
  }

  /** On every ring the handler and the consumer produce, `Dequeue` answers
      `EVT_NONE` exactly when the ring is empty. */
  lemma HandlerNoneMeansEmpty(s: State)
    requires Inv(s)
    ensures Dequeue(s.queue).event == EvtNone <==> s.queue.head == s.queue.tail
  {
    NoneMeansEmpty(s.queue);
  }

  /** In particular after any inputs from the armed referee. */
  lemma ReachableNoneMeansEmpty(ins: seq<Inputs>)
    ensures var r := Run(Armed(), ins);
      Dequeue(r.queue).event == EvtNone <==> r.queue.head == r.queue.tail
  {
    HandlerNoneMeansEmpty(Run(Armed(), ins));
  }
}

=== FILE: sspi_responses.dfy ===
/** The two response modes of the SSPI referee: after IDCODE the framer
    shifts the response byte out on MISO, MSB first; after READ_STATUS it
    counts the bytes clocked and puts the done bit in the seventh. */
module SspiResponses {
  import opened Words
  import opened EventQueue
  import Ticks
  import opened Sspi
  import opened SspiProperties

  /** The MISO level after each handler run. */
  function MisoTrace(s: State, ins: seq<Inputs>): (t: seq<bool>)
    requires Valid(s.queue)
    ensures |t| == |ins|
    decreases |ins|
  {
    if ins == [] then []
    else
      var n := Step(s, ins[0]);
      [n.miso] + MisoTrace(n, ins[1..])
  }

  /** What a response register puts on MISO over `n` edges: bit 7 each time,
      the register moving up by one after each. */
  function ShiftOut(reg: bv32, n: nat): (bits: seq<bool>)
    ensures |bits| == n
    decreases n
  {
    if n == 0 then [] else [ResponseBit(reg)] + ShiftOut(ShiftUp(reg), n - 1)
  }

  /** The response register after `n` edges. */
  function Shifted(reg: bv32, n: nat): bv32
    decreases n
  {
    if n == 0 then reg else Shifted(ShiftUp(reg), n - 1)
  }

  predicate Responding(s: State)
  {
    s.spi == SpiReadRsp || s.spi == SpiStatusRsp
  }

  /** An SCK edge before the eighth bit of a response byte: drive bit 7 and
      move the register up. */
  lemma ResponseEdge(s: State, b: bool, now: Ticks.Reading)
    requires Valid(s.queue) && Responding(s) && 0 <= s.bitIdx < 7
    ensures Step(s, ClockInput(b, now)) ==
      s.(shiftReg := ShiftInMsbFirst(s.shiftReg, b), miso := ResponseBit(s.outShiftReg),
         outShiftReg := ShiftUp(s.outShiftReg), bitIdx := s.bitIdx + 1)
  {
  }

  /** The eighth edge of a response byte: drive its last bit, then do the
      byte-boundary work. */
  lemma LastResponseEdge(s: State, b: bool, now: Ticks.Reading)
    requires Valid(s.queue) && Responding(s) && s.bitIdx == 7
    ensures Step(s, ClockInput(b, now)) ==
      ByteBoundary(s.(shiftReg := ShiftInMsbFirst(s.shiftReg, b), miso := ResponseBit(s.outShiftReg),
                      outShiftReg := ShiftUp(s.outShiftReg), bitIdx := 0), now)
  {
  }

  /** The byte boundary of a READ response: the response is exhausted. */
  lemma ReadBoundary(t: State, now: Ticks.Reading)
    requires Valid(t.queue) && t.spi == SpiReadRsp
    ensures ByteBoundary(t, now) == t.(outShiftReg := 0)
  {
  }

  /** The byte boundary of a STATUS response: count the byte, and load the
      done bit when the count reaches the done byte and the flag is set. */
  lemma StatusBoundary(t: State, now: Ticks.Reading)
    requires Valid(t.queue) && t.spi == SpiStatusRsp
    ensures var n := Inc32(t.byteCount);
      ByteBoundary(t, now) == t.(byteCount := n, outShiftReg := if n == StatusDoneByte && t.doneFlag then StatusDoneBit else 0)
  {
  }

  /** The MISO level after `n` edges that started from level `m`. */
  function LastOut(m: bool, reg: bv32, n: nat): bool
    decreases n
  {
    if n == 0 then m else LastOut(ResponseBit(reg), ShiftUp(reg), n - 1)
  }

  lemma {:induction false} MisoTraceAppend(s: State, a: seq<Inputs>, b: seq<Inputs>)
    requires Valid(s.queue)
    ensures MisoTrace(s, a + b) == MisoTrace(s, a) + MisoTrace(Run(s, a), b)
    decreases |a|
  {
    if a == [] {
      assert a + b == b;
    } else {
      assert (a + b)[0] == a[0] && (a + b)[1..] == a[1..] + b;
      MisoTraceAppend(Step(s, a[0]), a[1..], b);
    }
  }

  lemma {:induction false} ShiftOutSnoc(reg: bv32, n: nat)
    ensures ShiftOut(reg, n + 1) == ShiftOut(reg, n) + [ResponseBit(Shifted(reg, n))]
    decreases n
  {
    if n > 0 {
      ShiftOutSnoc(ShiftUp(reg), n - 1);
    }
  }

  /** Edges inside a response byte only shift the response register and
      drive MISO from it. */
  lemma {:induction false} ResponseWithin(s: State, bits: seq<bool>, now: Ticks.Reading)
    requires Valid(s.queue) && Responding(s) && 0 <= s.bitIdx && s.bitIdx + |bits| < 8
    ensures var r := Run(s, ClockIn(bits, now));
      && r.spi == s.spi && r.bitIdx == s.bitIdx + |bits|
      && r.miso == LastOut(s.miso, s.outShiftReg, |bits|) && r.outShiftReg == Shifted(s.outShiftReg, |bits|)
      && r.byteCount == s.byteCount && r.doneFlag == s.doneFlag && r.queue == s.queue && r.proto == s.proto
    decreases |bits|
  {
    if bits != [] {
      var n := Step(s, ClockInput(bits[0], now));
      ResponseEdge(s, bits[0], now);
      assert ClockIn(bits, now)[1..] == ClockIn(bits[1..], now);
      ResponseWithin(n, bits[1..], now);
    }
  }

  /** Inside a response byte, MISO carries the register's bits from bit 7 down. */
  lemma {:induction false} TraceWithin(s: State, bits: seq<bool>, now: Ticks.Reading)
    requires Valid(s.queue) && Responding(s) && 0 <= s.bitIdx && s.bitIdx + |bits| < 8
    ensures MisoTrace(s, ClockIn(bits, now)) == ShiftOut(s.outShiftReg, |bits|)
    decreases |bits|
  {
    if bits != [] {
      var n := Step(s, ClockInput(bits[0], now));
      ResponseEdge(s, bits[0], now);
      assert ClockIn(bits, now)[1..] == ClockIn(bits[1..], now);
      TraceWithin(n, bits[1..], now);
    }
  }

  /** A whole response byte puts the register's bits 7 down to 0 on MISO,
      whatever arrives on MOSI. */
  lemma ResponseTrace(s: State, bits: seq<bool>, now: Ticks.Reading)
    requires Valid(s.queue) && Responding(s) && s.bitIdx == 0 && |bits| == 8
    ensures MisoTrace(s, ClockIn(bits, now)) == ShiftOut(s.outShiftReg, 8)
  {
    var first := bits[..7];
    var last := [ClockInput(bits[7], now)];
    assert ClockIn(bits, now) == ClockIn(first, now) + last;
    var m := Run(s, ClockIn(first, now));
    ResponseWithin(s, first, now);
    ByteEndTrace(m, bits[7], now);
    MisoTraceAppend(s, ClockIn(first, now), last);
    TraceWithin(s, first, now);
    ShiftOutSnoc(s.outShiftReg, 7);
  }

  /** At the end of a response byte the READ response is exhausted, and the
      STATUS response counts the byte and loads the done bit once the count
      reaches the done byte. */
  lemma ResponseByte(s: State, bits: seq<bool>, now: Ticks.Reading)
    requires Valid(s.queue) && Responding(s) && s.bitIdx == 0 && |bits| == 8
    ensures var r := Run(s, ClockIn(bits, now));
      && r.spi == s.spi && r.bitIdx == 0 && r.proto == s.proto && r.queue == s.queue && r.doneFlag == s.doneFlag
      && (s.spi == SpiReadRsp ==> r.outShiftReg == 0 && r.byteCount == s.byteCount)
      && (s.spi == SpiStatusRsp ==>
            && r.byteCount == Inc32(s.byteCount)
            && r.outShiftReg == if r.byteCount == StatusDoneByte && s.doneFlag then StatusDoneBit else 0)
  {
    var first := bits[..7];
    var last := [ClockInput(bits[7], now)];
    assert ClockIn(bits, now) == ClockIn(first, now) + last;
    var m := Run(s, ClockIn(first, now));
    ResponseWithin(s, first, now);
    ByteEnd(m, bits[7], now);
    RunAppend(s, ClockIn(first, now), last);
  }

  /** The eighth edge of a response byte, as a one-element run. */
  lemma ByteEnd(m: State, b: bool, now: Ticks.Reading)
    requires Valid(m.queue) && Responding(m) && m.bitIdx == 7
    ensures Run(m, [ClockInput(b, now)]) == AfterResponse(m, b)
  {
    var t := m.(shiftReg := ShiftInMsbFirst(m.shiftReg, b), miso := ResponseBit(m.outShiftReg),
                outShiftReg := ShiftUp(m.outShiftReg), bitIdx := 0);
    LastResponseEdge(m, b, now);
    if m.spi == SpiReadRsp { ReadBoundary(t, now); } else { StatusBoundary(t, now); }
  }

  /** The eighth edge drives the last bit of the response byte. */
  lemma ByteEndTrace(m: State, b: bool, now: Ticks.Reading)
    requires Valid(m.queue) && Responding(m) && m.bitIdx == 7
    ensures MisoTrace(m, [ClockInput(b, now)]) == [ResponseBit(m.outShiftReg)]
  {
    assert MisoTrace(m, [ClockInput(b, now)]) == [Run(m, [ClockInput(b, now)]).miso];
    ByteEnd(m, b, now);
  }

  /** The state after the eighth edge of a response byte. */
  function AfterResponse(m: State, b: bool): State
  {
    var t := m.(shiftReg := ShiftInMsbFirst(m.shiftReg, b), miso := ResponseBit(m.outShiftReg),
                outShiftReg := ShiftUp(m.outShiftReg), bitIdx := 0);
    if m.spi == SpiReadRsp then t.(outShiftReg := 0)
    else
      var n := Inc32(t.byteCount);
      t.(byteCount := n, outShiftReg := if n == StatusDoneByte && t.doneFlag then StatusDoneBit else 0)
  }

  /** The IDCODE answer: 0x11 (the register's low byte), bit 7 first. */
  lemma IdResponseBits()
    ensures ShiftOut(IdResponse, 8) == MsbBits(0x11)
    ensures ShiftOut(0, 8) == MsbBits(0)
    ensures ShiftOut(StatusDoneBit, 8) == MsbBits(0x02)
  {
  }

  // ----- Whole response windows -----

  /** READ_STATUS leaves the done flag and the response register alone. */
  lemma ReadStatusKeeps(s: State, now: Ticks.Reading)
    ensures var c := Classify(s, CmdReadStatus, now);
      c.next.doneFlag == s.doneFlag && c.next.outShiftReg == s.outShiftReg
  {
  }

  /** A CS falling edge and the IDCODE byte load the identification response. */
  lemma IdcodeOpened(s: State, now: Ticks.Reading)
    requires Valid(s.queue)
    ensures var r := Run(s, [CsFallInput(now)] + ClockIn(MsbBits(CmdIdcode), now));
      r.spi == SpiReadRsp && r.outShiftReg == IdResponse && r.bitIdx == 0
  {
    CommandOpened(s, CmdIdcode, now);
  }

  /** A CS falling edge and the READ_STATUS byte start the status response
      with the byte counter cleared; the response register is not reloaded. */
  lemma StatusOpened(s: State, now: Ticks.Reading)
    requires Valid(s.queue)
    ensures var r := Run(s, [CsFallInput(now)] + ClockIn(MsbBits(CmdReadStatus), now));
      && r.spi == SpiStatusRsp && r.byteCount == 0 && r.bitIdx == 0
      && r.doneFlag == s.doneFlag && r.outShiftReg == s.outShiftReg
  {
    CommandOpened(s, CmdReadStatus, now);
    ReadStatusKeeps(Opened(s, CmdReadStatus), now);
  }

  /** The IDCODE read: the byte after the command reads 0x11 on MISO, MSB
      first, and the byte after that reads 0. */
  lemma IdcodeReadout(s: State, first: seq<bool>, second: seq<bool>, now: Ticks.Reading)
    requires Valid(s.queue) && |first| == 8 && |second| == 8
    ensures var r := Run(s, [CsFallInput(now)] + ClockIn(MsbBits(CmdIdcode), now));
      && MisoTrace(r, ClockIn(first, now)) == MsbBits(0x11)
      && MisoTrace(Run(r, ClockIn(first, now)), ClockIn(second, now)) == MsbBits(0)
  {
    var r := Run(s, [CsFallInput(now)] + ClockIn(MsbBits(CmdIdcode), now));
    IdcodeOpened(s, now);
    ResponseTrace(r, first, now);
    ResponseByte(r, first, now);
    ResponseTrace(Run(r, ClockIn(first, now)), second, now);
    IdResponseBits();
  }

  /** Status bytes: each one is counted, and after each the response register
      holds the done bit exactly when the count has reached the done byte and
      the done flag is set. */
  lemma {:induction false} StatusBytes(s: State, bytes: seq<bv8>, now: Ticks.Reading)
    requires Valid(s.queue) && s.spi == SpiStatusRsp && s.bitIdx == 0 && |bytes| >= 1
    ensures var r := Run(s, BytesIn(bytes, now));
      && r.spi == SpiStatusRsp && r.bitIdx == 0 && r.doneFlag == s.doneFlag
      && r.byteCount == AddWrapped(s.byteCount, |bytes|)
      && r.outShiftReg == if r.byteCount == StatusDoneByte && s.doneFlag then StatusDoneBit else 0
    decreases |bytes|
  {
    var head := ClockIn(MsbBits(bytes[0]), now);
    var m := Run(s, head);
    ResponseByte(s, MsbBits(bytes[0]), now);
    if |bytes| > 1 {
      RunAppend(s, head, BytesIn(bytes[1..], now));
      StatusBytes(m, bytes[1..], now);
      AddWrappedInc(s.byteCount, |bytes| - 1);
    } else {
      assert BytesIn(bytes, now) == head;
      assert AddWrapped(s.byteCount, 1) == Inc32(s.byteCount);
    }
  }

  /** After READ_STATUS and `k` further bytes (fewer than 2^32), the
      response register holds the done bit exactly when `k` is the done byte
      and the done flag is set. */
  lemma StatusAfter(s: State, bytes: seq<bv8>, now: Ticks.Reading)
    requires Valid(s.queue) && 1 <= |bytes| < Modulus32
    ensures var r := Run(s, [CsFallInput(now)] + ClockIn(MsbBits(CmdReadStatus), now));
      var k := Run(r, BytesIn(bytes, now));
      && Responding(k) && k.bitIdx == 0
      && k.outShiftReg == if |bytes| == StatusDoneByte && s.doneFlag then StatusDoneBit else 0
  {
    var r := Run(s, [CsFallInput(now)] + ClockIn(MsbBits(CmdReadStatus), now));
    StatusOpened(s, now);
    StatusBytes(r, bytes, now);
    AddWrappedSmall(0, |bytes|);
  }

  /** The status read: after READ_STATUS and `k` further bytes (fewer than
      2^32), the next byte reads 0x02 on MISO when `k` is 6 and the done flag
      is set, and 0 otherwise. */
  lemma StatusReadout(s: State, bytes: seq<bv8>, b: bv8, now: Ticks.Reading)
    requires Valid(s.queue) && 1 <= |bytes| < Modulus32
    ensures var r := Run(s, [CsFallInput(now)] + ClockIn(MsbBits(CmdReadStatus), now));
      MisoTrace(Run(r, BytesIn(bytes, now)), ClockIn(MsbBits(b), now))
        == MsbBits(if |bytes| == StatusDoneByte && s.doneFlag then 0x02 else 0x00)
  {
    var r := Run(s, [CsFallInput(now)] + ClockIn(MsbBits(CmdReadStatus), now));
    var k := Run(r, BytesIn(bytes, now));
    StatusAfter(s, bytes, now);
    ResponseTrace(k, MsbBits(b), now);
    IdResponseBits();
  }
}

=== FILE: tap.dfy ===
/** The 16-state TAP controller of IEEE Std 1149.1 (section 6.1, the TAP
    controller state diagram), as the JTAG referee's `PORT5_IRQHandler`
    (JTAG_Emulator/main.c) steps it on each TCK rising edge. */
module Tap {

  datatype TapState =
    | Reset | Idle
    | SelectDr | CaptureDr | ShiftDr | Exit1Dr | PauseDr | Exit2Dr | UpdateDr
    | SelectIr | CaptureIr | ShiftIr | Exit1Ir | PauseIr | Exit2Ir | UpdateIr

  /** The state after one TCK rising edge with the sampled TMS level. */
  function Next(t: TapState, tms: bool): TapState
  {
    match t
    case Reset => if tms then Reset else Idle
    case Idle => if tms then SelectDr else Idle
    case SelectDr => if tms then SelectIr else CaptureDr
    case CaptureDr => if tms then Exit1Dr else ShiftDr
    case ShiftDr => if tms then Exit1Dr else ShiftDr
    case Exit1Dr => if tms then UpdateDr else PauseDr
    case PauseDr => if tms then Exit2Dr else PauseDr
    case Exit2Dr => if tms then UpdateDr else ShiftDr
    case UpdateDr => if tms then SelectDr else Idle
    case SelectIr => if tms then Reset else CaptureIr
    case CaptureIr => if tms then Exit1Ir else ShiftIr
    case ShiftIr => if tms then Exit1Ir else ShiftIr
    case Exit1Ir => if tms then UpdateIr else PauseIr
    case PauseIr => if tms then Exit2Ir else PauseIr
    case Exit2Ir => if tms then UpdateIr else ShiftIr
    case UpdateIr => if tms then SelectDr else Idle
  }

  /** One arc of the standard's state diagram: from `from`, TMS = `tms` leads to `to`. */
  datatype Arc = Arc(from: TapState, tms: bool, to: TapState)

  /** The state diagram of IEEE Std 1149.1 section 6.1, arc by arc, each
      state with its TMS = 0 arc first. */
  const Diagram: seq<Arc> := [
    Arc(Reset, false, Idle), Arc(Reset, true, Reset),
    Arc(Idle, false, Idle), Arc(Idle, true, SelectDr),
    Arc(SelectDr, false, CaptureDr), Arc(SelectDr, true, SelectIr),
    Arc(CaptureDr, false, ShiftDr), Arc(CaptureDr, true, Exit1Dr),
    Arc(ShiftDr, false, ShiftDr), Arc(ShiftDr, true, Exit1Dr),
    Arc(Exit1Dr, false, PauseDr), Arc(Exit1Dr, true, UpdateDr),
    Arc(PauseDr, false, PauseDr), Arc(PauseDr, true, Exit2Dr),
    Arc(Exit2Dr, false, ShiftDr), Arc(Exit2Dr, true, UpdateDr),
    Arc(UpdateDr, false, Idle), Arc(UpdateDr, true, SelectDr),
    Arc(SelectIr, false, CaptureIr), Arc(SelectIr, true, Reset),
    Arc(CaptureIr, false, ShiftIr), Arc(CaptureIr, true, Exit1Ir),
    Arc(ShiftIr, false, ShiftIr), Arc(ShiftIr, true, Exit1Ir),
    Arc(Exit1Ir, false, PauseIr), Arc(Exit1Ir, true, UpdateIr),
    Arc(PauseIr, false, PauseIr), Arc(PauseIr, true, Exit2Ir),
    Arc(Exit2Ir, false, ShiftIr), Arc(Exit2Ir, true, UpdateIr),
    Arc(UpdateIr, false, Idle), Arc(UpdateIr, true, SelectDr)
  ]

  /** The handler's transition table is the standard's diagram: every arc it
      takes is in the diagram, and every arc of the diagram is taken. So each
      state has exactly the two successors the standard gives it. */
  lemma NextIsDiagram()
    ensures forall t: TapState, tms: bool :: Arc(t, tms, Next(t, tms)) in Diagram
    ensures forall a | a in Diagram :: Next(a.from, a.tms) == a.to
  {
    forall t: TapState, tms: bool
      ensures Arc(t, tms, Next(t, tms)) in Diagram
    {
      ArcListed(t, tms);
    }
    forall a | a in Diagram
      ensures Next(a.from, a.tms) == a.to
    {
      var k :| 0 <= k < |Diagram| && Diagram[k] == a;
      DiagramArcTaken(k);
    }
  }

  lemma ArcListed(t: TapState, tms: bool)
    ensures Arc(t, tms, Next(t, tms)) in Diagram
  {
    var k := Index(t) * 2 + (if tms then 1 else 0);
    assert Diagram[k] == Arc(t, tms, Next(t, tms));
  }

  lemma DiagramArcTaken(k: nat)
    requires k < |Diagram|
    ensures Next(Diagram[k].from, Diagram[k].tms) == Diagram[k].to
  {
    if k < 16 {
      if k < 8 {} else {}
    } else {
      if k < 24 {} else {}
    }
  }

  /** The position of a state's arcs in `Diagram`. */
  function Index(t: TapState): (k: nat)
    ensures k < 16
  {
    match t
    case Reset => 0 case Idle => 1
    case SelectDr => 2 case CaptureDr => 3 case ShiftDr => 4 case Exit1Dr => 5
    case PauseDr => 6 case Exit2Dr => 7 case UpdateDr => 8
    case SelectIr => 9 case CaptureIr => 10 case ShiftIr => 11 case Exit1Ir => 12
    case PauseIr => 13 case Exit2Ir => 14 case UpdateIr => 15
  }

  /** A state's TMS = 0 arc sits at `2 * Index(t)` and its TMS = 1 arc right
      after it. */
  lemma IndexPlaces(t: TapState)
    ensures Diagram[2 * Index(t)].from == t && !Diagram[2 * Index(t)].tms
    ensures Diagram[2 * Index(t) + 1].from == t && Diagram[2 * Index(t) + 1].tms
  {
  }

  /** `Index` numbers the 16 states one-to-one. */
  lemma IndexInjective(u: TapState, v: TapState)
    requires Index(u) == Index(v)
    ensures u == v
  {
    IndexPlaces(u);
    IndexPlaces(v);
  }

  /** The states that hold while TMS stays 0: Run-Test/Idle and the shift
      and pause states. Only Test-Logic-Reset holds while TMS stays 1. */
  lemma SteadyStates(t: TapState)
    ensures Next(t, false) == t <==> t in {Idle, ShiftDr, PauseDr, ShiftIr, PauseIr}
    ensures Next(t, true) == t <==> t == Reset
  {
  }

  /** The TAP state after a sequence of TMS samples. */
  function Walk(t: TapState, tms: seq<bool>): TapState
    decreases |tms|
  {
    if tms == [] then t else Walk(Next(t, tms[0]), tms[1..])
  }

  function Ones(n: nat): (s: seq<bool>)
    ensures |s| == n && forall k | 0 <= k < n :: s[k]
  {
    seq(n, _ => true)
  }

  /** How many TMS = 1 clocks take a state to Test-Logic-Reset. */
  function DistanceToReset(t: TapState): (d: nat)
    ensures d <= 5
    ensures d == 0 <==> t == Reset
  {
    match t
    case Reset => 0
    case SelectIr => 1
    case SelectDr => 2
    case Idle | UpdateDr | UpdateIr => 3
    case Exit1Dr | Exit2Dr | Exit1Ir | Exit2Ir => 4
    case CaptureDr | ShiftDr | PauseDr | CaptureIr | ShiftIr | PauseIr => 5
  }

  /** Each TMS = 1 clock brings a state one step closer to Test-Logic-Reset. */
  lemma DistanceDecreases(t: TapState)
    requires t != Reset
    ensures DistanceToReset(Next(t, true)) == DistanceToReset(t) - 1
  {
  }

  /** Holding TMS at 1 for at least the distance reaches Test-Logic-Reset and
      stays there. */
  lemma {:induction false} OnesReachReset(t: TapState, n: nat)
    requires n >= DistanceToReset(t)
    ensures Walk(t, Ones(n)) == Reset
    decreases n
  {
    if n > 0 {
      assert Ones(n)[1..] == Ones(n - 1);
      if t != Reset {
        DistanceDecreases(t);
      }
      OnesReachReset(Next(t, true), n - 1);
    }
  }

  /** Five TMS = 1 clocks reach Test-Logic-Reset from any state. */
  lemma FiveOnesReset(t: TapState)
    ensures Walk(t, Ones(5)) == Reset
    ensures Next(Reset, true) == Reset
  {
    OnesReachReset(t, 5);
  }
}

=== FILE: ticks.dfy ===
/** Elapsed-time measurement on the SysTick counter (`GetTickDelta` in
    SSPI_Emultaor/main.c). SysTick is loaded with 0xFFFFFF and counts DOWN, so
    it passes through 2^24 values per period; the current reading `now` is an
    input here rather than a register read. */
module Ticks {

  /** A reading of the 24-bit counter. */
  type Reading = x: int | 0 <= x < 0x100_0000

  const TicksPerMs: nat := 48000

  /** The erase-to-address-init gate: 4 ms at 48 MHz. */
  const MinEraseWaitTicks: nat := 4 * TicksPerMs

  /** SysTick's reload value. */
  const Reload: nat := 0xFFFFFF

  /** The counter's period: it takes `Reload + 1` decrements to come back to a value. */
  const Period: nat := Reload + 1

  /** The distance from `start` down to `now` on a down-counter with period
      2^24: the number of decrements between the two readings, modulo one
      period. A wait of a full period or more is indistinguishable from its
      remainder (`Aliasing`). */
  function Elapsed(start: Reading, now: Reading): (n: nat)
    ensures n < Period
  {
    if start >= now then start - now else start - now + Period
  }

  /** `Elapsed` is the distance from `now` up to `start` modulo the period. */
  lemma ElapsedIsModular(start: Reading, now: Reading)
    ensures Elapsed(start, now) == (start - now) % Period
    ensures (now + Elapsed(start, now)) % Period == start
  {
  }

  /** `GetTickDelta(start)` with `SysTick->VAL` passed in as `now`. Without a
      wrap it is the reading distance; across a wrap the source's formula
      `start + (0xFFFFFF - now)` comes out one tick short of it. */
  function GetTickDelta(start: Reading, now: Reading): (r: nat)
    ensures r <= Reload
    ensures start == now ==> r == 0
    ensures start >= now ==> r == Elapsed(start, now)
    ensures start < now ==> r + 1 == Elapsed(start, now)
  {
    if start >= now then start - now
    else start + (Reload - now)
  }

  /** The timing gate the address-init command applies, stated against the
      reading distance: a distance at least one tick past the minimum always
      passes, and a distance short of the minimum always fails. */
  lemma GateAgainstElapsed(start: Reading, now: Reading)
    ensures Elapsed(start, now) > MinEraseWaitTicks ==> GetTickDelta(start, now) >= MinEraseWaitTicks
    ensures Elapsed(start, now) < MinEraseWaitTicks ==> GetTickDelta(start, now) < MinEraseWaitTicks
  {
  }

  /** A real wait of `d` decrements from `start` ends on the reading
      `(start - d) mod 2^24`, and the readings show only `d mod 2^24` of it. */
  lemma Aliasing(start: Reading, d: nat)
    ensures Elapsed(start, (start - d) % Period) == d % Period
  {
    ElapsedIsModular(start, (start - d) % Period);
  }

  /** The gate against a real wait of `d` decrements: for waits shorter than
      one period it decides as the wait does (up to the wrap tick); a wait of
      one period or more is judged by its remainder only. */
  lemma GateAgainstWait(start: Reading, d: nat)
    ensures var now: Reading := (start - d) % Period;
      && (MinEraseWaitTicks < d < Period ==> GetTickDelta(start, now) >= MinEraseWaitTicks)
      && (d < MinEraseWaitTicks ==> GetTickDelta(start, now) < MinEraseWaitTicks)
      && (d % Period < MinEraseWaitTicks ==> GetTickDelta(start, now) < MinEraseWaitTicks)
  {
    var now: Reading := (start - d) % Period;
    Aliasing(start, d);
    GateAgainstElapsed(start, now);
  }

  /** A wait longer than a whole period that the gate still calls too early:
      an address-init 2^24 + 100 ticks after the erase reads as 100 ticks. */
  lemma LateWaitReadsEarly()
    ensures (500 - (Period + 100)) % Period == 400
    ensures Period + 100 > MinEraseWaitTicks
    ensures Elapsed(500, 400) == 100 && GetTickDelta(500, 400) < MinEraseWaitTicks
  {
  }

  /** Where the off-by-one decides the verdict: the gate disagrees with the
      reading distance exactly when the distance is the minimum itself and the
      counter wrapped in between (192000 reading pairs, one per `start` below
      the minimum). */
  lemma GateMisjudges(start: Reading, now: Reading)
    ensures (GetTickDelta(start, now) >= MinEraseWaitTicks) != (Elapsed(start, now) >= MinEraseWaitTicks)
        <==> start < now && Elapsed(start, now) == MinEraseWaitTicks
  {
  }

  /** One such pair: exactly the minimum wait has elapsed, but across a wrap,
      so the gate still reports it as too early. */
  lemma WrapAtGateReadsShort()
    ensures Elapsed(0, Period - MinEraseWaitTicks) == MinEraseWaitTicks
    ensures GetTickDelta(0, Period - MinEraseWaitTicks) == MinEraseWaitTicks - 1
  {
  }
}

=== FILE: words.dfy ===
/** Machine words shared by both referees: the firmware keeps its counters in
    `uint32_t`, so every increment wraps at 2^32. */
module Words {

  const Modulus32: int := 0x1_0000_0000

  /** The values of a C `uint32_t`. */
  type U32 = x: int | 0 <= x < 0x1_0000_0000

  /** `x++` on a `uint32_t`: the successor, wrapping to 0 after 2^32 - 1. */
  function Inc32(x: U32): (r: U32)
    ensures x < Modulus32 - 1 ==> r == x + 1
    ensures x == Modulus32 - 1 ==> r == 0
  {
    (x + 1) % Modulus32
  }

  /** `n` wrapping increments starting from `x` land on `(x + n) mod 2^32`. */
  function AddWrapped(x: U32, n: nat): U32
  {
    (x + n) % Modulus32
  }

  /** Below 2^32 nothing wraps. */
  lemma AddWrappedSmall(x: U32, n: nat)
    requires x + n < Modulus32
    ensures AddWrapped(x, n) == x + n
  {
  }

  lemma AddWrappedInc(x: U32, n: nat)
    ensures AddWrapped(Inc32(x), n) == AddWrapped(x, n + 1)
  {
  }

  function Min(a: int, b: int): int
  {
    if a <= b then a else b
  }

  /** Bit `k` of a byte, bit 0 being the least significant. */
  function BitOf(x: bv8, k: nat): bool
    requires k < 8
  {
    (x >> k) & 1 == 1
  }

  /** A byte is determined by its eight bits. */
  lemma ByteFromBits(x: bv8, y: bv8)
    requires forall k | 0 <= k < 8 :: BitOf(x, k) == BitOf(y, k)
    ensures x == y
  {
    assert BitOf(x, 0) == BitOf(y, 0) && BitOf(x, 1) == BitOf(y, 1);
    assert BitOf(x, 2) == BitOf(y, 2) && BitOf(x, 3) == BitOf(y, 3);
    assert BitOf(x, 4) == BitOf(y, 4) && BitOf(x, 5) == BitOf(y, 5);
    assert BitOf(x, 6) == BitOf(y, 6) && BitOf(x, 7) == BitOf(y, 7);
  }
}
